=== FILE: README.md ===
# Worker-tracker: record store and attendance services

This project models the core of Worker-tracker, a small attendance system. A
Telegram bot and a web backend share JSON files that hold users, attendance
sessions, location samples, daily reports and the settings record. The
modelled core has three parts:

- **The record store** (`JsonDB`), in its two copies. The backend copy is
  thread-locked and rewrites a file in place. The bot copy is asyncio-locked
  and writes a temporary file, then replaces the target with it. Each copy is a
  Dafny class. The class holds the on-disk state of every file: `Missing`,
  `Corrupt` (it is not valid JSON), `Undecodable` (it is not valid UTF-8) or
  `Present(documents)`. Each method states
  the documents it returns and the new state of the files. A write takes an
  `IoFault` parameter: it either succeeds, fails before opening the file, or
  fails part-way. This makes the two copies' different crash behaviour
  visible.
- **The attendance rules** of `services.py`: work hours, late and early-leave
  minutes, the geofence test, starting and ending the day's session,
  recording a location sample and submitting a daily report. Each operation
  is a pure step function, written over the settings and the collections it
  reads. It returns the operation's result and the one write it makes to each
  collection. The lemmas about these functions state the rules:
  - at most one session per user and day;
  - online minutes equal the number of the session's samples;
  - a report submission is an upsert, and it is read back by
    `get_user_report`.
- **Statistics and chart data** over a user's sessions in a date range.
  - Range filtering compares `"YYYY-MM-DD"` strings as text. `FormatOrder`
    proves that text order is date order for the strings `strftime` writes.
  - Statistics over a range split into statistics over two adjacent ranges.
  - The attendance rate stays within 0..100 whenever office minutes never
    exceed online minutes.
  - The chart has one label per calendar day of the range, in order, each
    label read back to its day by `strptime`. Each point holds the counters
    of that day's last session, or 0 when there is none.

The service methods in `services.dfy` run against the backend class. Each one
ensures that its result is the step function's result. It also ensures that
the new files are the old ones with the step's writes applied, and that the
settings record is what `get_settings` leaves behind.

Python behaviour is modelled explicitly:
- `==` on loaded JSON compares `True`, `1` and `1.0` as equal numbers.
- `str <=` is code-point lexicographic order (`LexLe`).
- `strptime("%H:%M")` and `strptime("%Y-%m-%d")` accept the one-digit forms
  that CPython's patterns allow. `strftime` pads its fields to two digits.
- The date after 9999-12-31 raises OverflowError.
- An exception escaping a call (KeyError, TypeError, ValueError,
  OverflowError, UnicodeDecodeError) is the outcome `Raised`. Any write made before the raise is
  kept.

Where the design text and the code disagree, the model follows the code:
- The backend's `write` opens the target file for writing and dumps into it.
  It is not a write-then-rename, so a write that fails part-way leaves the
  file unparseable (`BackendDb.AfterWrite`). Only the bot copy replaces the
  file atomically.
- `start_session` sets the status back to "online" whenever it is not
  already "online", not only when it is "offline".
- `end_session` returns None when there is no session today. It does not
  check the session's status, so ending twice overwrites the end time.
- Service errors are not turned into result values. A missing settings key,
  a malformed time or date, or a non-numeric counter raises out of the call.
- The bot catches only `JSONDecodeError` and `IOError`. On a file that is
  not valid JSON, its `read` returns [] and its `append` and `update` return
  False. On a file that is not valid UTF-8, `UnicodeDecodeError` escapes from
  all three. Either way the bot leaves the file alone. The backend's bare
  `except` reads both kinds of file as empty, and its `append` overwrites
  them with the one new item.

## Model

| member | source | states |
|---|---|---|
| Docs.PyEqIsEquivalence | app/backend/database.py:80-85 | the `==` the store matches with is reflexive, symmetric and transitive, also across bool/int/float |
| Docs.MatchHoldsKey | app/backend/database.py:95-97 | a document matching a filter whose value is not None holds that key |
| Docs.MergeKeepsMatch | app/backend/database.py:87-93 | a shallow merge whose keys avoid the filter's keys keeps whether a document matches |
| Docs.PyEq | app/backend/database.py:83 | Python `==` on loaded JSON: equal values are equal; values that are not numbers are equal only when identical; `True` equals 1 and `False` equals 0 |
| Docs.Matches | app/backend/database.py:97 | every document matches the empty filter, and any document holding every filter pair matches it |
| Records.FirstIndex | app/backend/database.py:80-85 | the index found matches; every earlier document does not; None exactly when no document matches |
| Records.FilterConcat | app/backend/database.py:95-97 | filtering a concatenation filters each part, so stored order is kept |
| Records.FilterSnoc | app/backend/database.py:75-78 | after an append, the filter gains the new item exactly when it matches |
| Records.FilterMembers | app/backend/database.py:95-97 | a document is in the filter's result iff it is stored and matches every filter pair |
| Records.Filter | app/backend/database.py:95-97 | the comprehension of `find_many` keeps at most as many documents as are stored |
| Records.FirstMatch | app/backend/database.py:80-85 | the document `find_one` returns is stored, its key equals the value, and no earlier stored document's key does; None iff no stored document's key equals it |
| Records.UpdateFirst | app/backend/database.py:87-93 | without a match nothing changes; otherwise the first match gets the patch merged and every other document is unchanged |
| Records.FilterEmpty | bot/database.py:129-131 | an empty filter selects the whole collection |
| Records.FilterCountReplace | app/backend/database.py:89-92 | replacing one document by one that matches the same filter keeps the filter's count |
| Records.UpdateFirstKeepsCount | app/backend/database.py:87-93 | an update whose patch avoids the filter's keys neither creates nor removes a match |
| Records.AppendCount | app/backend/database.py:75-78 | an append raises the number of matches by one exactly when the item matches |
| Records.FirstWhere | app/backend/services.py:57-58 | index of the first stored document matching all filters; None iff none matches |
| Records.FilterHead | app/backend/services.py:57-58 | `results[0] if results else None` is the first matching document in stored order |
| Records.FirstWhereAfterReplace | app/backend/services.py:144-151 | replacing the first match by a matching document keeps it the first match |
| BackendDb.JsonDB.constructor | app/backend/database.py:16-18 | the store starts over the files already on disk |
| BackendDb.AfterWrite | app/backend/database.py:41-50 | a successful write stores the data; a failure on open leaves the files as they were; a failure part-way leaves the file unparseable; no other file changes |
| BackendDb.JsonDB.Read | app/backend/database.py:29-39 | the stored list; [] for a missing file and, through the bare `except`, for one that is not valid JSON or not valid UTF-8 |
| BackendDb.JsonDB.Write | app/backend/database.py:41-50 | True iff no I/O fault; success stores the list; a fault part-way leaves the file corrupt; a fault on open leaves it as it was |
| BackendDb.JsonDB.ReadSingle | app/backend/database.py:52-62 | the stored record; None for a missing file, one that is not valid JSON, or one that is not valid UTF-8 |
| BackendDb.JsonDB.WriteSingle | app/backend/database.py:64-73 | as Write, for the single-record files |
| BackendDb.JsonDB.Append | app/backend/database.py:75-78 | on success the collection read back is the old one plus the item; a missing, unparseable or undecodable file restarts as `[item]` |
| BackendDb.JsonDB.FindOne | app/backend/database.py:80-85 | the first stored document whose key equals the value; None iff none does |
| BackendDb.JsonDB.Update | app/backend/database.py:87-93 | False and no write without a match; otherwise writes the collection with the first match merged |
| BackendDb.JsonDB.FindMany | app/backend/database.py:95-97 | exactly the matching documents, in stored order; everything for an empty filter |
| BackendDb.DefaultSettings | app/backend/database.py:110-121 | the defaults are non-empty: work 09:00-18:00, lunch 13:00-14:00, and a geofence of radius 100 around (41.311081, 69.240562) |
| BackendDb.EffectiveSettings | app/backend/database.py:124-129 | never empty; the stored record when it is a non-empty dict, the defaults otherwise |
| BackendDb.GetSettings | app/backend/database.py:124-129 | returns the stored record, or the defaults when it is missing, unparseable or empty; the defaults are then written back |
| BackendDb.GetSettingsIdempotent | app/backend/database.py:124-129 | a second `get_settings` sees the same settings and writes nothing new |
| BackendDb.SaveSettings | app/backend/database.py:132-134 | returns the write's success and the caller's dict as stamped: its keys plus `updated_at`, set to the time, other values kept; the stamp is there even when the write fails; the settings record becomes the stamped dict on success |
| BotDb.JsonDB.constructor | bot/database.py:18-20 | the store starts over the files already on disk |
| BotDb.JsonDB.Read | bot/database.py:31-45 | the stored list; [] for a missing or unparseable file; raises exactly for a file that is not valid UTF-8 |
| BotDb.JsonDB.Replace | bot/database.py:52-57 | write-to-temp-then-replace: success stores the list; any fault leaves the target untouched |
| BotDb.JsonDB.Write | bot/database.py:47-60 | True iff no I/O fault; the file holds either the old or the new full list |
| BotDb.JsonDB.Append | bot/database.py:62-83 | raises exactly for an undecodable file; True iff no fault and the file is missing or holds a list; then the collection is the old one plus the item; otherwise the file is untouched |
| BotDb.JsonDB.FindOne | bot/database.py:85-90 | the first stored document whose key equals the value; None iff none does; raises for an undecodable file |
| BotDb.JsonDB.Update | bot/database.py:92-120 | raises exactly for an undecodable file; False and no write for a missing or unparseable file or no match; otherwise the first match is merged, and the file changes only on success |
| BotDb.JsonDB.FindMany | bot/database.py:122-124 | exactly the matching documents, in stored order; everything for an empty filter; raises for an undecodable file |
| BotDb.JsonDB.Count | bot/database.py:126-131 | the collection's length without filters or with an empty one, the number of matches otherwise, never more than the length; raises for an undecodable file |
| Text.LexLeIsNumericOrder | app/backend/services.py:13 | for strings with digits in the same places, Python string order is the order of the numbers they spell |
| Text.LexLeTotal | app/backend/services.py:108 | any two strings compare one way or the other |
| Text.LexLeAntisymmetric | app/backend/services.py:108 | strings each `<=` the other are equal |
| Text.LexLeTransitive | app/backend/services.py:108 | string `<=` is transitive |
| Text.Pad2 | app/backend/services.py:12 | `%H`, `%M`, `%m`, `%d` print two digits spelling the value |
| Clock.ParseClock | app/backend/services.py:19-20 | `strptime("%H:%M")` yields a minute of the day below 24*60 |
| Clock.FormatClock | app/backend/services.py:12 | `strftime("%H:%M")` yields a zero-padded "HH:MM" with HH <= 23, MM <= 59 |
| Clock.ParseCanonicalClock | app/backend/services.py:19-20 | a zero-padded "HH:MM" is read as HH*60 + MM |
| Clock.ClockRoundTrip | app/backend/services.py:72-82 | the time `start_session` formats is read back by `calculate_late_minutes` as the same minute |
| Clock.CanonicalClockOrder | app/backend/services.py:12-13 | for zero-padded times, the text comparison of `is_work_hours` is time-of-day order |
| Clock.LateMinutes | app/backend/services.py:16-23 | defined iff both times parse; 0 iff the arrival is at or before the start; otherwise start + minutes = arrival |
| Clock.EarlyLeaveMinutes | app/backend/services.py:26-33 | defined iff both times parse; 0 iff the departure is at or after the end; otherwise departure + minutes = end |
| Clock.LatenessMonotone | app/backend/services.py:16-33 | arriving later never lowers late minutes; leaving later never raises early-leave minutes |
| Clock.WorkdayScenario | app/backend/services.py:16-33 | with 09:00-18:00, arriving 09:15 is 15 minutes late and leaving 17:45 is 15 minutes early |
| Calendar.NextDay | app/backend/services.py:216 | the next day is valid with day number one higher; OverflowError exactly at 9999-12-31 |
| Calendar.UpToLastDate | app/backend/services.py:202-216 | no valid date lies after 9999-12-31, so a walk ending there never stops by the loop test |
| Calendar.DateLeIsOrdinalOrder | app/backend/services.py:202 | comparing dates is comparing day numbers |
| Calendar.OrdinalStrictlyIncreasing | app/backend/services.py:202 | an earlier date has a smaller day number |
| Calendar.OrdinalInjective | app/backend/services.py:202 | two dates with the same day number are equal |
| Calendar.Pad4 | app/backend/services.py:203 | `%Y` prints four digits spelling the year |
| Calendar.Format | app/backend/services.py:203 | `strftime("%Y-%m-%d")` is ten characters |
| Calendar.ParseDate | app/backend/services.py:196-197 | whatever `strptime("%Y-%m-%d")` accepts is a valid date |
| Calendar.DateRoundTrip | app/backend/services.py:196-203 | a formatted date parses back to itself |
| Calendar.FormatDigits | app/backend/services.py:203 | the digits of a formatted date spell YYYYMMDD |
| Calendar.FormatOrder | app/backend/services.py:108 | text order of formatted dates is date order |
| Calendar.DayRange | app/backend/services.py:201-216 | every day the chart loop visits is a valid date |
| Calendar.DayRangeStep | app/backend/services.py:201-216 | one loop turn: past the end, stop; at 9999-12-31 the end was reached; otherwise emit the day and continue from the next |
| Calendar.DayRangeAdvance | app/backend/services.py:201-216 | the days already emitted plus the rest of the walk are the same after one more loop turn |
| Calendar.WalkExit | app/backend/services.py:202-216 | when the loop test fails, the walk has emitted every day of the range, and the end is not 9999-12-31 |
| Calendar.WalkOverflow | app/backend/services.py:216 | the walk overflows only in a non-empty range ending at 9999-12-31 |
| Calendar.DayRangeDays | app/backend/services.py:201-216 | the loop visits Ordinal(end)-Ordinal(start)+1 days (none if start > end), day k being k days after start and each the next day of the one before |
| Attendance.ApplyToLoaded | app/backend/database.py:75-93 | after a service's write, reading the collection gives the written documents; other collections are unchanged |
| Attendance.ApplyKeepsDistinctIds | app/backend/services.py:74 | appending a fresh id, or patching without touching "id", keeps ids distinct |
| Attendance.WorkHours | app/backend/services.py:9-13 | raises exactly when `work_start` is missing or not a string, or when the arrival is not before it and `work_end` is missing or not a string (the chained comparison stops early) |
| Attendance.WorkHoursByMinutes | app/backend/services.py:9-13 | with zero-padded settings and clock, work hours are start <= now <= end in minutes |
| Attendance.LateFor | app/backend/services.py:16-23 | raises iff `work_start` is missing or either time fails to parse; 0 iff the arrival is at or before the start; otherwise start + minutes = arrival |
| Attendance.EarlyFor | app/backend/services.py:26-33 | raises iff `work_end` is missing or either time fails to parse; 0 iff the departure is at or after the end; otherwise departure + minutes = end |
| Attendance.DefaultHoursCanonical | app/backend/database.py:112-113 | the default hours are canonical times at 540 and 1080 minutes |
| Attendance.DefaultWorkHours | app/backend/services.py:9-13 | under the defaults, work hours are 09:00-18:00 with both ends included |
| Attendance.DefaultGeofence | app/backend/services.py:46-51 | with the geofence of the default settings, inside means within 100 m of (41.311081, 69.240562) |
| Attendance.InsideGeofence | app/backend/services.py:46-51 | raises iff the geofence is not an object or its centre or radius (after the defaults 0, 0 and 100) is not a number; without a geofence, or with an empty one, inside means within 100 m of (0, 0) |
| Attendance.ConfiguredGeofence | app/backend/services.py:46-51 | for any configured geofence object whose fields (each defaulting on its own) are numbers, inside means the distance to its centre is at most its radius |
| Attendance.TodaySessionIsFirst | app/backend/services.py:55-58 | today's session is a non-empty dict whose user and date equal the ones asked for |
| Attendance.TodaySession | app/backend/services.py:55-58 | None iff no stored session matches the user and day; otherwise the first one that does |
| Attendance.NewSessionMatches | app/backend/services.py:73-85 | a new session matches the filter `get_today_session` uses for its user and day |
| Attendance.StartSessionStep | app/backend/services.py:61-87 | None iff outside work hours; appends only when there is no session today, and then returns the appended one; patches only an existing session; a raise writes nothing |
| Attendance.ReopenStep | app/backend/services.py:65-70 | returns the existing session with the same keys and status online, other fields kept; never appends; a patch sets only the status, on the session's id |
| Attendance.CreateStep | app/backend/services.py:72-87 | raises iff the late minutes raise, and writes nothing then; otherwise appends and returns one new online session carrying the late minutes |
| Attendance.StartSessionClosed | app/backend/services.py:61-63 | outside work hours, None and no write |
| Attendance.StartSessionReuses | app/backend/services.py:65-70 | an existing session is returned with status online; nothing is appended; only status is patched |
| Attendance.StartSessionCreates | app/backend/services.py:72-87 | without one, a new session with the late minutes of the current time is appended and returned |
| Attendance.NewSessionFields | app/backend/services.py:73-85 | a new session belongs to the user and day, is online, has no end time and zero counters |
| Attendance.StartSessionOnePerDay | app/backend/services.py:61-87 | appends only when the user has no session today, never changes the count otherwise, and leaves at least one after a start |
| Attendance.ReopenKeepsCount | app/backend/services.py:66-70 | the reuse branch appends nothing and keeps the number of sessions matching any filter that ignores status |
| Attendance.CreateAddsOne | app/backend/services.py:72-86 | without a session today, the create branch brings the day's count from 0 to 1 |
| Attendance.EndSessionEffect | app/backend/services.py:90-103 | None and no write without a session; otherwise patches exactly status, end time and early minutes, whatever the old status, and keeps every other field |
| Attendance.EndSessionStep | app/backend/services.py:90-103 | None iff there is no session today; never appends; a patch is keyed on today's session's id |
| Attendance.CloseStep | app/backend/services.py:95-103 | raises iff the early-leave minutes raise or the session has no id, and writes nothing then; otherwise patches exactly status offline, the end time and the early minutes, and returns the session merged with them |
| Attendance.CloseKeepsCount | app/backend/services.py:95-101 | closing a session keeps the number of sessions matching any filter that ignores status, end time and early minutes |
| Attendance.OfficeCount | app/backend/services.py:130 | KeyError iff a sample lacks `is_inside_office`; never more than the number of samples |
| Attendance.RecordLocationTotals | app/backend/services.py:112-136 | the sample is appended; the session's online minutes are its sample count (one more than before) and its office minutes the inside-office count, at most online |
| Attendance.RecordLocationClosed | app/backend/services.py:113-114 | outside work hours, None and no write |
| Attendance.RecordLocationStep | app/backend/services.py:112-136 | outside work hours no write; a session patch only after a sample append; a returned sample is the appended one and carries the user and session |
| Attendance.StoreSample | app/backend/services.py:125-134 | appends the sample; raises iff a session sample lacks `is_inside_office`, writing no session then; otherwise patches exactly the two totals of that session, online the sample count and office between 0 and online |
| Attendance.SubmitReportUpserts | app/backend/services.py:140-161 | appends iff the user has no report that day, else patches the first; the day's report count grows by one exactly when it appends |
| Attendance.SubmitReportStep | app/backend/services.py:140-161 | appends iff the user has no report that day and then returns the appended one; the returned report carries the content |
| Attendance.ReviseStep | app/backend/services.py:145-151 | raises iff the report has no id; otherwise patches exactly content and submission time on its id and returns it with the new content, other fields kept |
| Attendance.UserReport | app/backend/services.py:164-166 | None iff no stored report matches the user and day; otherwise a stored matching report with no matching report before it |
| Attendance.SubmitThenGet | app/backend/services.py:140-166 | after a submission, `get_user_report` for that day returns the submitted content |
| Attendance.SubmitAppendedGet | app/backend/services.py:153-160 | a new report appended when none matched is the only match |
| Attendance.SubmitPatchedGet | app/backend/services.py:144-151 | the report patched by its unique id stays the day's first report and carries the new content |
| Statistics.RangeFilterMembers | app/backend/services.py:108 | the range filter keeps exactly the stored sessions dated within the range |
| Statistics.SessionsInRangeMembers | app/backend/services.py:106-108 | raises iff one of the user's sessions has no string date; otherwise exactly the user's sessions in the range |
| Statistics.SessionsInRange | app/backend/services.py:106-108 | never more sessions than the user has; [] when the user has none |
| Statistics.TotalCons | app/backend/services.py:173-176 | a sum is the first session's counter (default 0) plus the sum of the rest |
| Statistics.Total | app/backend/services.py:173-176 | defined iff every session's counter, default 0, is a number; 0 for no sessions |
| Statistics.StatsOver | app/backend/services.py:173-189 | raises iff some counter is not a number; days is the session count; average 0 without sessions, else average * days = online; rate 0 without online minutes, else rate * online = office * 100 |
| Statistics.UserStatistics | app/backend/services.py:170-189 | returns iff the range query returns and every in-range session's counters are numbers; then echoes user and dates, and counts no more days than the user has sessions |
| Statistics.RangeSplit | app/backend/services.py:108 | with canonical dates, the sessions in [a, c] split into those in [a, m] and in [m+1, c] |
| Statistics.StatisticsSplit | app/backend/services.py:170-189 | days and all four totals over [a, c] are those over [a, m] plus those over [m+1, c] |
| Statistics.StatsOverSplit | app/backend/services.py:173-186 | when a range's sessions are those of two others, its day count and totals are their sums |
| Statistics.RangeSplitHead | app/backend/services.py:108 | a session dated within [a, c] falls in exactly one of [a, m] and [m+1, c] |
| Statistics.TotalsOrdered | app/backend/services.py:173-174 | when each session's office minutes are within its online minutes, so are the totals |
| Statistics.AttendanceRateBounded | app/backend/services.py:188 | the attendance rate lies within 0..100 when every session keeps office <= online |
| Statistics.ByDateLatest | app/backend/services.py:194 | a date is a key iff some session has it, and maps to the last such session |
| Statistics.ByDate | app/backend/services.py:194 | every date key maps to a session carrying that date |
| Statistics.Labels | app/backend/services.py:203-204 | one label per day, label k being day k formatted |
| Statistics.ChartOver | app/backend/services.py:199-214 | the three series have one point per label; point k holds the cells of label k |
| Statistics.ChartStep | app/backend/services.py:202-216 | visiting one more day adds exactly one point for it at the end |
| Statistics.RangeLabels | app/backend/services.py:201-216 | label k parses back to the day k days after the start |
| Statistics.RangeLabelsEnds | app/backend/services.py:201-216 | as many labels as days in the range, none if start > end; the first is the start, the last the end |
| Statistics.ChartLabels | app/backend/services.py:192-225 | the chart's labels are the range's days, and every series has one point per label |
| Statistics.ChartData | app/backend/services.py:192-225 | raises iff the range query raises, a date does not parse, or a non-empty walk must step past 9999-12-31; a returned chart has no labels iff start > end |
| Statistics.ChartCells | app/backend/services.py:206-214 | a day with no session has 0; otherwise the counter of the day's last in-range session, default 0 |
| Statistics.CellLatest | app/backend/services.py:194-214 | a day's cell is 0 without a session of that date, else the counter of the last such session |
| Services.IsWorkHours | app/backend/services.py:9-13 | the work-hours rule on the settings `get_settings` returns; only the settings record may change |
| Services.CalculateLateMinutes | app/backend/services.py:16-23 | late minutes against the configured start; raises on a malformed time |
| Services.CalculateEarlyLeave | app/backend/services.py:26-33 | early-leave minutes against the configured end; raises on a malformed time |
| Services.IsInsideGeofence | app/backend/services.py:46-51 | the geofence rule on the current settings |
| Services.GetTodaySession | app/backend/services.py:55-58 | the first stored session of the user and day; writes nothing |
| Services.StartSession | app/backend/services.py:61-87 | result and session write are those of the start-session rule |
| Services.Reopen | app/backend/services.py:66-70 | returns the existing session and sets its stored status to online unless it already is |
| Services.EndSession | app/backend/services.py:90-103 | result and session write are those of the end-session rule; the settings are read only when a session exists |
| Services.Close | app/backend/services.py:95-103 | computes the early-leave minutes and merges status, end time and those minutes into the stored session |
| Services.GetSessionsByRange | app/backend/services.py:106-108 | the user's stored sessions dated within the range |
| Services.RecordLocation | app/backend/services.py:112-136 | appends the sample, then patches the session's counters, as the record-location rule states |
| Services.StoreLocation | app/backend/services.py:125-134 | appends the sample, then writes the session's sample count and inside-office count into the session; raises when a sample lacks `is_inside_office` |
| Services.SubmitReport | app/backend/services.py:140-161 | result and report write are those of the upsert rule; settings untouched |
| Services.Revise | app/backend/services.py:145-151 | stores the new content and submission time in the existing report and returns it with the new content |
| Services.GetUserReport | app/backend/services.py:164-166 | the first stored report of the user for that day |
| Services.GetUserStatistics | app/backend/services.py:170-189 | the statistics of the user's stored sessions in the range |
| Services.DayValues | app/backend/services.py:206-214 | the day's three counters, or zeros without a session |
| Services.WalkDays | app/backend/services.py:199-216 | the loop yields the chart over the range's days; it raises when it must step past 9999-12-31 |
| Services.GetChartData | app/backend/services.py:192-225 | the chart data rule over the stored sessions |

## Left out

- Locking (`_get_lock`, the per-file lock maps and the global lock): every
  store operation is modelled as one atomic step. Interleavings of
  concurrent callers are not modelled. So neither the backend's lost-update
  race between `read` and `write` in `append`/`update` nor the bot's lock
  scopes are captured.
- `record_location` makes two writes (the sample, then the session). Only
  their sequential effect is modelled. No reader sees the state between
  them.
- The haversine distance (`haversine_distance`) and all floating point:
  the distance is a function parameter, and JSON floats are reals.
  Rounding is not modelled, and a sum of integers is not distinguished from
  a sum of floats.
- JSON encoding and decoding, paths, directories and file-system I/O. A
  file is `Missing`, `Corrupt`, `Undecodable` or holds parsed documents. A
  file holding a JSON value of the wrong shape (an object where a list
  belongs) is not modelled. The collection files and the settings record are
  kept in two separate maps keyed by file name. So writing `settings.json`
  as a list through `write` does not change what `read_single` sees, and the
  reverse holds too.
- A backend write that fails part-way is modelled as leaving malformed JSON
  (`Corrupt`), never bytes that are not valid UTF-8. Both read as empty in
  the backend, so the difference only shows in the bot.
- The services run with the store's writes succeeding (no I/O faults). The
  code ignores the boolean those writes return.
- `datetime.now()` is one `Now` value per call. The code reads the clock
  several times in one call, and the model cannot show those readings
  straddling midnight or a minute boundary.
- `uuid.uuid4()` is a parameter. Freshness is a precondition
  (`Attendance.ApplyKeepsDistinctIds`), not a consequence of randomness.
- `strptime` accepts non-ASCII Unicode digits. The model accepts ASCII
  digits only.
- `%Y` for years below 1000: the model pads to four digits, which is what
  CPython does on glibc but not on every platform.
- JSON arrays inside a document: a field value is null, a boolean, a
  number, a string or an object, never a list. The code stores only scalar
  and object fields, so a document with a list field (which the store would
  round-trip) cannot be represented.
- Equality of nested JSON objects holding numbers is structural in the
  model. Python would compare `{"a": 1}` and `{"a": 1.0}` as equal.
- The chart's dataset captions and colours are constants and are not
  modelled. The model keeps the labels and the three data series.
- The web routes, the bot handlers, authentication, the front end and the
  configuration modules are not part of this model.
- Attendance.WorkHours: the comparison is modelled as Python's string order.
  Its agreement with time-of-day order is proved only for zero-padded
  settings and clock (`WorkHoursByMinutes`).
- Statistics.StatisticsSplit: proved only when every session of the user
  carries a canonical "YYYY-MM-DD" date. For other strings, text order is
  not date order.

=== FILE: attendance.dfy ===
/** The attendance rules of the backend services, as functions of the data a
    call reads: the settings `get_settings` returns, the stored collections,
    and the instant `datetime.now()` stands for. A call's writes are described
    by an `Effect` on one collection, which the store then carries out. */
module Attendance {
  import opened Docs
  import opened Records
  import opened Storage
  import opened Text
  import opened Clock
  import BackendDb

  /** The instant of one call: `strftime("%Y-%m-%d")`, `strftime("%H:%M")` and
      `isoformat()` of `datetime.now()`. */
  datatype Now = Now(date: string, clock: string, stamp: string)

  /** What a call writes to one collection: nothing, `append(doc)`, or
      `update(key, value, patch)`. */
  datatype Effect = Unchanged | Appended(doc: Doc) | Patched(key: string, value: Value, patch: Doc)

  /** The result of a call together with its write to one collection. */
  datatype Step<+T> = Step(result: Outcome<T>, effect: Effect)

  /** The documents `read` returns after the write. */
  function Apply(docs: seq<Doc>, e: Effect): seq<Doc> {
    match e
    case Unchanged => docs
    case Appended(d) => docs + [d]
    case Patched(k, v, p) => UpdateFirst(docs, k, v, p)
  }

  /** The store's files after a successful write to collection `name`:
      `append` rewrites the file with the document added, `update` rewrites it
      only when some document matches and otherwise leaves every file alone. */
  function ApplyTo(files: map<string, Persisted<seq<Doc>>>, name: string, e: Effect): map<string, Persisted<seq<Doc>>> {
    var docs := Loaded(StateOf(files, name));
    match e
    case Unchanged => files
    case Appended(d) => files[name := Present(docs + [d])]
    case Patched(k, v, p) =>
      if FirstIndex(docs, k, v).Some? then files[name := Present(UpdateFirst(docs, k, v, p))] else files
  }

  /** Carrying out a write and then reading the collection gives the documents
      the effect describes, and every other file is left as it was. */
  lemma ApplyToLoaded(files: map<string, Persisted<seq<Doc>>>, name: string, e: Effect, other: string)
    ensures Loaded(StateOf(ApplyTo(files, name, e), name)) == Apply(Loaded(StateOf(files, name)), e)
    ensures other != name ==> StateOf(ApplyTo(files, name, e), other) == StateOf(files, other)
  {
  }

  /** No two documents carry equal `id`s (every id is a fresh `uuid4`). */
  predicate DistinctIds(docs: seq<Doc>) {
    forall i, j :: 0 <= i < j < |docs| ==> !PyEq(Get(docs[i], "id"), Get(docs[j], "id"))
  }

  /** An id no stored document carries. */
  predicate FreshId(docs: seq<Doc>, id: Value) {
    forall i :: 0 <= i < |docs| ==> !PyEq(Get(docs[i], "id"), id)
  }

  /** Appending a document with a fresh id, or merging a patch that leaves
      `id` alone, keeps ids distinct. */
  lemma ApplyKeepsDistinctIds(docs: seq<Doc>, e: Effect)
    requires DistinctIds(docs)
    requires e.Appended? ==> FreshId(docs, Get(e.doc, "id"))
    requires e.Patched? ==> "id" !in e.patch
    ensures DistinctIds(Apply(docs, e))
  {
    var r := Apply(docs, e);
    match e
    case Unchanged =>
    case Appended(d) =>
      forall i, j | 0 <= i < j < |r|
        ensures !PyEq(Get(r[i], "id"), Get(r[j], "id"))
      {
        if j == |docs| {
          PyEqIsEquivalence(Get(r[i], "id"), Get(d, "id"), Null);
        }
      }
    case Patched(k, v, p) =>
      forall i | 0 <= i < |r|
        ensures Get(r[i], "id") == Get(docs[i], "id")
      {
      }
  }

  /** `settings[key]` used as an "HH:MM" string; None where Python raises
      (KeyError for a missing key, TypeError for a non-string). */
  function TextSetting(settings: Doc, key: string): Option<string> {
    if key in settings && settings[key].Str? then Some(settings[key].s) else None
  }

  /** `is_work_hours`: `settings["work_start"] <= now <= settings["work_end"]`
      as a chained string comparison, so "work_end" is only looked at once
      the first comparison holds. */
  function WorkHours(settings: Doc, now: string): (r: Outcome<bool>)
    ensures r.Raised? <==>
      TextSetting(settings, "work_start").None? ||
      (LexLe(TextSetting(settings, "work_start").value, now) && TextSetting(settings, "work_end").None?)
  {
    match TextSetting(settings, "work_start")
    case None => Raised
    case Some(ws) =>
      if !LexLe(ws, now) then Returned(false)
      else
        match TextSetting(settings, "work_end")
        case None => Raised
        case Some(we) => Returned(LexLe(now, we))
  }

  /** With zero-padded settings and clock, the text comparison of
      `is_work_hours` is the comparison of minutes since midnight. */
  lemma WorkHoursByMinutes(settings: Doc, now: string)
    requires TextSetting(settings, "work_start").Some? && TextSetting(settings, "work_end").Some?
    requires IsCanonicalClock(TextSetting(settings, "work_start").value)
    requires IsCanonicalClock(TextSetting(settings, "work_end").value)
    requires IsCanonicalClock(now)
    ensures WorkHours(settings, now) == Returned(
      ParseClock(TextSetting(settings, "work_start").value).value <= ParseClock(now).value
      <= ParseClock(TextSetting(settings, "work_end").value).value)
  {
    CanonicalClockOrder(TextSetting(settings, "work_start").value, now);
    CanonicalClockOrder(now, TextSetting(settings, "work_end").value);
  }

  /** "09:00" and "18:00" are canonical times at 540 and 1080 minutes. */
  lemma DefaultHoursCanonical()
    ensures IsCanonicalClock("09:00") && ParseClock("09:00") == Some(540)
    ensures IsCanonicalClock("18:00") && ParseClock("18:00") == Some(1080)
  {
    TwoDigits("09");
    TwoDigits("00");
    TwoDigits("18");
    assert "09:00"[..2] == "09" && "09:00"[3..] == "00";
    assert "18:00"[..2] == "18" && "18:00"[3..] == "00";
    ParseLiteral("09:00", 9, 0);
    ParseLiteral("18:00", 18, 0);
  }

  /** Under the default settings work hours run from 09:00 to 18:00, both ends included. */
  lemma DefaultWorkHours(settings: Doc, now: string)
    requires TextSetting(settings, "work_start") == Some("09:00")
    requires TextSetting(settings, "work_end") == Some("18:00")
    requires IsCanonicalClock(now)
    ensures WorkHours(settings, now) == Returned(540 <= ParseClock(now).value <= 1080)
  {
    DefaultHoursCanonical();
    WorkHoursByMinutes(settings, now);
  }

  /** `calculate_late_minutes` against the configured `work_start`. */
  function LateFor(settings: Doc, clock: string): (r: Outcome<nat>)
    ensures r.Raised? <==>
      TextSetting(settings, "work_start").None? ||
      ParseClock(TextSetting(settings, "work_start").value).None? || ParseClock(clock).None?
    ensures r.Returned? ==>
      var ws := ParseClock(TextSetting(settings, "work_start").value).value;
      && (r.value == 0 <==> ParseClock(clock).value <= ws)
      && (r.value > 0 ==> ws + r.value == ParseClock(clock).value)
  {
    match TextSetting(settings, "work_start")
    case None => Raised
    case Some(ws) =>
      match LateMinutes(ws, clock)
      case None => Raised
      case Some(m) => Returned(m)
  }

  /** `calculate_early_leave` against the configured `work_end`. */
  function EarlyFor(settings: Doc, clock: string): (r: Outcome<nat>)
    ensures r.Raised? <==>
      TextSetting(settings, "work_end").None? ||
      ParseClock(TextSetting(settings, "work_end").value).None? || ParseClock(clock).None?
    ensures r.Returned? ==>
      var we := ParseClock(TextSetting(settings, "work_end").value).value;
      && (r.value == 0 <==> we <= ParseClock(clock).value)
      && (r.value > 0 ==> ParseClock(clock).value + r.value == we)
  {
    match TextSetting(settings, "work_end")
    case None => Raised
    case Some(we) =>
      match EarlyLeaveMinutes(we, clock)
      case None => Raised
      case Some(m) => Returned(m)
  }

  /** Distance in metres between two (latitude, longitude) points; the
      backend uses the haversine formula. */
  type Distance = (real, real, real, real) -> real

  /** `is_inside_geofence`: within `radius_meters` (default 100) of the
      configured centre (default 0, 0), boundary included. A geofence that is
      not an object, or a centre or radius that is not a number, raises. */
  function InsideGeofence(settings: Doc, lat: real, lng: real, distance: Distance): (r: Outcome<bool>)
    ensures "geofence" !in settings ==> r == Returned(distance(lat, lng, 0.0, 0.0) <= 100.0)
    ensures r.Raised? ==> "geofence" in settings
    ensures r.Raised? <==>
      var fence := GetOr(settings, "geofence", Obj(map[]));
      || !fence.Obj?
      || Number(GetOr(fence.fields, "center_lat", Int(0))).None?
      || Number(GetOr(fence.fields, "center_lng", Int(0))).None?
      || Number(GetOr(fence.fields, "radius_meters", Int(100))).None?
    ensures "geofence" in settings && settings["geofence"] == Obj(map[]) ==>
      r == Returned(distance(lat, lng, 0.0, 0.0) <= 100.0)
  {
    var fence := GetOr(settings, "geofence", Obj(map[]));
    if !fence.Obj? then Raised
    else
      var cLat := Number(GetOr(fence.fields, "center_lat", Int(0)));
      var cLng := Number(GetOr(fence.fields, "center_lng", Int(0)));
      var radius := Number(GetOr(fence.fields, "radius_meters", Int(100)));
      if cLat.None? || cLng.None? || radius.None? then Raised
      else Returned(distance(lat, lng, cLat.value, cLng.value) <= radius.value)
  }

  /** A configured geofence: each of its fields that is present must be a
      number, and a missing one takes its default (centre 0, 0, radius 100);
      inside means within the radius of the centre, boundary included. */
  lemma ConfiguredGeofence(settings: Doc, lat: real, lng: real, distance: Distance,
                           fence: map<string, Value>, cLat: real, cLng: real, radius: real)
    requires "geofence" in settings && settings["geofence"] == Obj(fence)
    requires Number(GetOr(fence, "center_lat", Int(0))) == Some(cLat)
    requires Number(GetOr(fence, "center_lng", Int(0))) == Some(cLng)
    requires Number(GetOr(fence, "radius_meters", Int(100))) == Some(radius)
    ensures InsideGeofence(settings, lat, lng, distance) == Returned(distance(lat, lng, cLat, cLng) <= radius)
  {
  }

  /** Under the default settings' geofence, inside means within 100 m of
      (41.311081, 69.240562). */
  lemma DefaultGeofence(settings: Doc, lat: real, lng: real, distance: Distance)
    requires "geofence" in settings && settings["geofence"] == BackendDb.DefaultSettings()["geofence"]
    ensures InsideGeofence(settings, lat, lng, distance) == Returned(distance(lat, lng, 41.311081, 69.240562) <= 100.0)
  {
    ConfiguredGeofence(settings, lat, lng, distance, settings["geofence"].fields, 41.311081, 69.240562, 100.0);
  }

  // Sessions

  /** The filter of `get_today_session`. */
  function TodayFilter(user: int, date: string): Doc {
    map["user_id" := Int(user), "date" := Str(date)]
  }

  /** `get_today_session`: the first of the user's sessions dated `date`. */
  function TodaySession(sessions: seq<Doc>, user: int, date: string): (r: Option<Doc>)
    ensures r.None? <==> FirstWhere(sessions, TodayFilter(user, date)).None?
    ensures r.Some? ==> r == Some(sessions[FirstWhere(sessions, TodayFilter(user, date)).value])
  {
    FilterHead(sessions, TodayFilter(user, date));
    var found := Filter(sessions, TodayFilter(user, date));
    if |found| > 0 then Some(found[0]) else None
  }

  /** Today's session belongs to the user and date and is a non-empty dict,
      so `if existing:` / `if not session:` test exactly whether there is one. */
  lemma TodaySessionIsFirst(sessions: seq<Doc>, user: int, date: string)
    ensures TodaySession(sessions, user, date).Some? ==>
      var s := TodaySession(sessions, user, date).value;
      s != map[] && PyEq(Get(s, "user_id"), Int(user)) && PyEq(Get(s, "date"), Str(date))
  {
    var f := TodayFilter(user, date);
    FilterHead(sessions, f);
    if FirstWhere(sessions, f).Some? {
      MatchHoldsKey(sessions[FirstWhere(sessions, f).value], f, "user_id");
    }
  }

  /** The session document `start_session` creates. */
  function NewSession(id: string, user: int, now: Now, late: nat): Doc {
    map[
      "id" := Str(id),
      "user_id" := Int(user),
      "date" := Str(now.date),
      "start_time" := Str(now.clock),
      "end_time" := Null,
      "status" := Str("online"),
      "total_online_minutes" := Int(0),
      "total_office_minutes" := Int(0),
      "late_arrival_minutes" := Int(late),
      "early_leave_minutes" := Int(0),
      "created_at" := Str(now.stamp)]
  }

  /** `start_session`: nothing outside work hours; today's session is reused
      (and switched back to "online" if needed); otherwise a new session is
      appended with its late minutes. */
  function StartSessionStep(settings: Doc, sessions: seq<Doc>, user: int, now: Now, newId: string): (r: Step<Option<Doc>>)
    ensures r.result == Returned(None) <==> WorkHours(settings, now.clock) == Returned(false)
    ensures r.result.Raised? ==> r.effect == Unchanged
    ensures r.effect.Appended? ==>
      TodaySession(sessions, user, now.date).None? && r.result == Returned(Some(r.effect.doc))
    ensures r.effect.Patched? ==> TodaySession(sessions, user, now.date).Some?
  {
    match WorkHours(settings, now.clock)
    case Raised => Step(Raised, Unchanged)
    case Returned(open) =>
      if !open then Step(Returned(None), Unchanged)
      else
        match TodaySession(sessions, user, now.date)
        case Some(existing) => ReopenStep(existing)
        case None => CreateStep(settings, user, now, newId)
  }

  /** Today's session as `start_session` hands it back: as it is when already
      "online", otherwise switched back to "online" in the store too. */
  function ReopenStep(existing: Doc): (r: Step<Option<Doc>>)
    ensures !r.effect.Appended?
    ensures r.result.Raised? ==> r.effect == Unchanged
    ensures r.result.Returned? ==>
      && r.result.value.Some?
      && r.result.value.value.Keys == existing.Keys
      && "status" in r.result.value.value && PyEq(r.result.value.value["status"], Str("online"))
      && (forall k :: k in existing && k != "status" ==> r.result.value.value[k] == existing[k])
    ensures r.effect.Patched? ==>
      && "id" in existing && r.effect.key == "id" && r.effect.value == existing["id"]
      && r.effect.patch == map["status" := Str("online")]
      && r.result == Returned(Some(existing + r.effect.patch))
  {
    if "status" !in existing then Step(Raised, Unchanged)
    else if PyEq(existing["status"], Str("online")) then Step(Returned(Some(existing)), Unchanged)
    else if "id" !in existing then Step(Raised, Unchanged)
    else
      assert existing["status" := Str("online")] == existing + map["status" := Str("online")];
      Step(Returned(Some(existing["status" := Str("online")])),
           Patched("id", existing["id"], map["status" := Str("online")]))
  }

  /** The new session `start_session` appends when there is none today. */
  function CreateStep(settings: Doc, user: int, now: Now, newId: string): (r: Step<Option<Doc>>)
    ensures r.result.Raised? <==> LateFor(settings, now.clock).Raised?
    ensures r.result.Raised? ==> r.effect == Unchanged
    ensures r.result.Returned? ==>
      && r.effect.Appended? && r.result.value == Some(r.effect.doc)
      && "status" in r.effect.doc && r.effect.doc["status"] == Str("online")
      && "late_arrival_minutes" in r.effect.doc
      && r.effect.doc["late_arrival_minutes"] == Int(LateFor(settings, now.clock).value)
  {
    match LateFor(settings, now.clock)
    case Raised => Step(Raised, Unchanged)
    case Returned(late) =>
      var session := NewSession(newId, user, now, late);
      Step(Returned(Some(session)), Appended(session))
  }

  /** Outside work hours `start_session` returns None and writes nothing. */
  lemma StartSessionClosed(settings: Doc, sessions: seq<Doc>, user: int, now: Now, newId: string)
    requires WorkHours(settings, now.clock) == Returned(false)
    ensures StartSessionStep(settings, sessions, user, now, newId) == Step(Returned(None), Unchanged)
  {
  }

  /** With a session already open today, `start_session` appends nothing: it
      returns that session with status "online" and at most sets its status,
      so its start time and late minutes stay as first recorded. */
  lemma StartSessionReuses(settings: Doc, sessions: seq<Doc>, user: int, now: Now, newId: string)
    requires WorkHours(settings, now.clock) == Returned(true)
    requires TodaySession(sessions, user, now.date).Some?
    ensures var step := StartSessionStep(settings, sessions, user, now, newId);
      var existing := TodaySession(sessions, user, now.date).value;
      && !step.effect.Appended?
      && (step.effect.Patched? ==> step.effect.patch == map["status" := Str("online")])
      && (step.result.Returned? ==>
            && step.result.value.Some?
            && step.result.value.value.Keys == existing.Keys
            && PyEq(step.result.value.value["status"], Str("online"))
            && (forall k :: k in existing && k != "status" ==> step.result.value.value[k] == existing[k]))
  {
  }

  /** Without a session today, a successful `start_session` appends a new
      online session for the user and today, stamped with the current time,
      with zero counters and the late minutes measured from `work_start`. */
  lemma StartSessionCreates(settings: Doc, sessions: seq<Doc>, user: int, now: Now, newId: string)
    requires WorkHours(settings, now.clock) == Returned(true)
    requires TodaySession(sessions, user, now.date).None?
    ensures var step := StartSessionStep(settings, sessions, user, now, newId);
      && (step.result.Raised? <==> LateFor(settings, now.clock).Raised?)
      && (step.result.Returned? ==>
            && step.effect == Appended(step.result.value.value)
            && step.effect.doc == NewSession(newId, user, now, LateFor(settings, now.clock).value))
  {
  }

  /** A new session is found by today's filter for its user. */
  lemma NewSessionMatches(id: string, user: int, now: Now, late: nat)
    ensures Matches(NewSession(id, user, now, late), TodayFilter(user, now.date))
  {
    var s := NewSession(id, user, now, late);
    var f := TodayFilter(user, now.date);
    forall k | k in f
      ensures PyEq(Get(s, k), f[k])
    {
      assert k == "user_id" || k == "date";
    }
  }

  /** A new session belongs to the user and day, is online with no end time,
      starts at the current time and has zero counters. */
  lemma NewSessionFields(id: string, user: int, now: Now, late: nat)
    ensures var s := NewSession(id, user, now, late);
      && Matches(s, TodayFilter(user, now.date))
      && s["id"] == Str(id)
      && s["start_time"] == Str(now.clock) && s["end_time"] == Null
      && s["status"] == Str("online")
      && s["total_online_minutes"] == Int(0) && s["total_office_minutes"] == Int(0)
      && s["late_arrival_minutes"] == Int(late) && s["early_leave_minutes"] == Int(0)
  {
    NewSessionMatches(id, user, now, late);
  }

  /** `start_session` keeps at most one session per user and day: it appends
      only when none exists, its patch leaves user and date alone, and after a
      successful start there is at least one. */
  lemma StartSessionOnePerDay(settings: Doc, sessions: seq<Doc>, user: int, now: Now, newId: string)
    ensures var step := StartSessionStep(settings, sessions, user, now, newId);
      var f := TodayFilter(user, now.date);
      && CountMatching(Apply(sessions, step.effect), f) ==
           CountMatching(sessions, f) + (if step.effect.Appended? then 1 else 0)
      && (step.effect.Appended? ==> CountMatching(sessions, f) == 0)
      && (step.result.Returned? && step.result.value.Some? ==> CountMatching(Apply(sessions, step.effect), f) >= 1)
  {
    var step := StartSessionStep(settings, sessions, user, now, newId);
    if WorkHours(settings, now.clock) != Returned(true) {
      assert step.effect == Unchanged && !(step.result.Returned? && step.result.value.Some?);
    } else if TodaySession(sessions, user, now.date).Some? {
      assert step == ReopenStep(TodaySession(sessions, user, now.date).value);
      ReopenKeepsCount(sessions, TodaySession(sessions, user, now.date).value, TodayFilter(user, now.date));
    } else {
      assert step == CreateStep(settings, user, now, newId);
      CreateAddsOne(settings, sessions, user, now, newId);
    }
  }

  /** The reuse branch at most changes the status, so no session enters or
      leaves a filter that does not look at the status. */
  lemma ReopenKeepsCount(sessions: seq<Doc>, existing: Doc, f: Doc)
    requires "status" !in f
    ensures !ReopenStep(existing).effect.Appended?
    ensures CountMatching(Apply(sessions, ReopenStep(existing).effect), f) == CountMatching(sessions, f)
  {
    var e := ReopenStep(existing).effect;
    if e.Patched? {
      UpdateFirstKeepsCount(sessions, e.key, e.value, e.patch, f);
    }
  }

  /** Without a session today, the create branch adds exactly today's one. */
  lemma CreateAddsOne(settings: Doc, sessions: seq<Doc>, user: int, now: Now, newId: string)
    requires TodaySession(sessions, user, now.date).None?
    ensures var e := CreateStep(settings, user, now, newId).effect;
      && CountMatching(sessions, TodayFilter(user, now.date)) == 0
      && CountMatching(Apply(sessions, e), TodayFilter(user, now.date)) == if e.Appended? then 1 else 0
  {
    var e := CreateStep(settings, user, now, newId).effect;
    if e.Appended? {
      NewSessionMatches(newId, user, now, LateFor(settings, now.clock).value);
      AppendCount(sessions, e.doc, TodayFilter(user, now.date));
    }
  }


  /** The fields `end_session` writes. */
  function EndUpdates(clock: string, early: nat): Doc {
    map["status" := Str("offline"), "end_time" := Str(clock), "early_leave_minutes" := Int(early)]
  }

  /** `end_session`: None without a session today; otherwise today's session
      goes offline with the end time and early-leave minutes. */
  function EndSessionStep(settings: Doc, sessions: seq<Doc>, user: int, now: Now): (r: Step<Option<Doc>>)
    ensures r.result == Returned(None) <==> TodaySession(sessions, user, now.date).None?
    ensures !r.effect.Appended?
    ensures r.effect.Patched? ==>
      && TodaySession(sessions, user, now.date).Some?
      && "id" in TodaySession(sessions, user, now.date).value
      && r.effect.key == "id" && r.effect.value == TodaySession(sessions, user, now.date).value["id"]
  {
    match TodaySession(sessions, user, now.date)
    case None => Step(Returned(None), Unchanged)
    case Some(session) => CloseStep(settings, session, now.clock)
  }

  /** Today's session closed at `clock`: offline, with the end time and the
      early-leave minutes merged into it. */
  function CloseStep(settings: Doc, session: Doc, clock: string): (r: Step<Option<Doc>>)
    ensures r.result.Raised? <==> EarlyFor(settings, clock).Raised? || "id" !in session
    ensures r.result.Raised? ==> r.effect == Unchanged
    ensures r.result.Returned? ==>
      && r.effect.Patched? && "id" in session
      && r.effect.key == "id" && r.effect.value == session["id"]
      && r.result.value == Some(session + r.effect.patch)
      && r.effect.patch.Keys == {"status", "end_time", "early_leave_minutes"}
      && r.effect.patch["status"] == Str("offline")
      && r.effect.patch["end_time"] == Str(clock)
      && r.effect.patch["early_leave_minutes"] == Int(EarlyFor(settings, clock).value)
  {
    match EarlyFor(settings, clock)
    case Raised => Step(Raised, Unchanged)
    case Returned(early) =>
      if "id" !in session then Step(Raised, Unchanged)
      else
        var updates := EndUpdates(clock, early);
        Step(Returned(Some(session + updates)), Patched("id", session["id"], updates))
  }

  /** `end_session` writes only status, end time and early-leave minutes,
      never adds or removes a session of that user and day, and returns the
      session as patched with every other field as it was. It does not look
      at the previous status, so ending twice rewrites the three fields. */
  lemma EndSessionEffect(settings: Doc, sessions: seq<Doc>, user: int, now: Now)
    ensures var step := EndSessionStep(settings, sessions, user, now);
      && !step.effect.Appended?
      && (step.effect.Patched? ==> step.effect.patch.Keys == {"status", "end_time", "early_leave_minutes"})
      && CountMatching(Apply(sessions, step.effect), TodayFilter(user, now.date)) == CountMatching(sessions, TodayFilter(user, now.date))
      && (step.result.Returned? && step.result.value.Some? ==>
            && step.result.value.value["status"] == Str("offline")
            && step.result.value.value["end_time"] == Str(now.clock)
            && step.result.value.value["early_leave_minutes"] == Int(EarlyFor(settings, now.clock).value))
      && (TodaySession(sessions, user, now.date).None? <==> step == Step(Returned(None), Unchanged))
      && (step.result.Returned? && step.result.value.Some? ==>
            var session := TodaySession(sessions, user, now.date).value;
            forall k :: k in session && k !in step.effect.patch ==> step.result.value.value[k] == session[k])
      && (TodaySession(sessions, user, now.date).Some? && EarlyFor(settings, now.clock).Returned?
          && "id" in TodaySession(sessions, user, now.date).value ==>
            step.effect == Patched("id", TodaySession(sessions, user, now.date).value["id"],
                                   EndUpdates(now.clock, EarlyFor(settings, now.clock).value)))
  {
    var step := EndSessionStep(settings, sessions, user, now);
    EndSessionKeepsCount(settings, sessions, user, now);
    if step.result.Returned? && step.result.value.Some? {
      assert step == CloseStep(settings, TodaySession(sessions, user, now.date).value, now.clock);
    }
  }

  /** Ending the session rewrites one record in place, so the number of
      sessions of that user and day stays the same. */
  lemma EndSessionKeepsCount(settings: Doc, sessions: seq<Doc>, user: int, now: Now)
    ensures var f := TodayFilter(user, now.date);
      CountMatching(Apply(sessions, EndSessionStep(settings, sessions, user, now).effect), f) == CountMatching(sessions, f)
  {
    match TodaySession(sessions, user, now.date)
    case None =>
    case Some(session) =>
      CloseKeepsCount(settings, session, now.clock, sessions, TodayFilter(user, now.date));
  }

  /** Closing a session leaves every filter that ignores the three fields it
      writes with as many matches as before. */
  lemma CloseKeepsCount(settings: Doc, session: Doc, clock: string, sessions: seq<Doc>, f: Doc)
    requires "status" !in f && "end_time" !in f && "early_leave_minutes" !in f
    ensures CountMatching(Apply(sessions, CloseStep(settings, session, clock).effect), f) == CountMatching(sessions, f)
  {
    var effect := CloseStep(settings, session, clock).effect;
    if effect.Patched? {
      UpdateFirstKeepsCount(sessions, effect.key, effect.value, effect.patch, f);
    }
  }

  // Locations

  /** The location sample `record_location` stores. */
  function NewLocation(id: string, user: int, sessionId: string, lat: real, lng: real, inside: bool, now: Now): Doc {
    map[
      "id" := Str(id),
      "user_id" := Int(user),
      "session_id" := Str(sessionId),
      "latitude" := Float(lat),
      "longitude" := Float(lng),
      "is_inside_office" := Bool(inside),
      "timestamp" := Str(now.stamp)]
  }

  /** `sum(1 for loc in locations if loc["is_inside_office"])`; None where a
      sample lacks the key (KeyError). */
  function OfficeCount(locations: seq<Doc>): (r: Option<nat>)
    ensures r.None? <==> exists i :: 0 <= i < |locations| && "is_inside_office" !in locations[i]
    ensures r.Some? ==> r.value <= |locations|
  {
    if |locations| == 0 then Some(0)
    else if "is_inside_office" !in locations[0] then None
    else
      match OfficeCount(locations[1..])
      case None => None
      case Some(n) => Some((if Truthy(locations[0]["is_inside_office"]) then 1 else 0) + n)
  }

  /** The filter selecting one session's samples. */
  function SessionFilter(sessionId: string): Doc {
    map["session_id" := Str(sessionId)]
  }

  /** The two writes of `record_location`, to the locations and the sessions. */
  datatype LocationStep = LocationStep(result: Outcome<Option<Doc>>, locations: Effect, sessions: Effect)

  /** `record_location`: outside work hours nothing; otherwise the sample is
      appended, and the session whose id is `sessionId` gets one online minute
      per stored sample and one office minute per sample taken inside the
      geofence. */
  function RecordLocationStep(settings: Doc, locations: seq<Doc>, user: int, sessionId: string,
                              lat: real, lng: real, now: Now, newId: string, distance: Distance): (r: LocationStep)
    ensures WorkHours(settings, now.clock) != Returned(true) ==> r.locations == Unchanged && r.sessions == Unchanged
    ensures r.sessions.Patched? ==> r.locations.Appended?
    ensures r.result.Returned? && r.result.value.Some? ==>
      && r.locations == Appended(r.result.value.value)
      && "user_id" in r.result.value.value && r.result.value.value["user_id"] == Int(user)
      && "session_id" in r.result.value.value && r.result.value.value["session_id"] == Str(sessionId)
      && r.sessions.Patched?
  {
    match WorkHours(settings, now.clock)
    case Raised => LocationStep(Raised, Unchanged, Unchanged)
    case Returned(open) =>
      if !open then LocationStep(Returned(None), Unchanged, Unchanged)
      else
        match InsideGeofence(settings, lat, lng, distance)
        case Raised => LocationStep(Raised, Unchanged, Unchanged)
        case Returned(inside) =>
          StoreSample(locations, NewLocation(newId, user, sessionId, lat, lng, inside, now), sessionId)
  }

  /** The writes of `record_location` once the sample is built: append it,
      then recount the session's minutes from all of its samples. */
  function StoreSample(locations: seq<Doc>, location: Doc, sessionId: string): (r: LocationStep)
    ensures r.locations == Appended(location)
    ensures r.result.Raised? <==> OfficeCount(Filter(locations + [location], SessionFilter(sessionId))).None?
    ensures r.result.Raised? ==> r.sessions == Unchanged
    ensures r.result.Returned? ==>
      && r.result == Returned(Some(location))
      && r.sessions.Patched? && r.sessions.key == "id" && r.sessions.value == Str(sessionId)
      && r.sessions.patch.Keys == {"total_online_minutes", "total_office_minutes"}
      && r.sessions.patch["total_online_minutes"] == Int(CountMatching(locations + [location], SessionFilter(sessionId)))
      && r.sessions.patch["total_office_minutes"].Int?
      && 0 <= r.sessions.patch["total_office_minutes"].i <= r.sessions.patch["total_online_minutes"].i
  {
    var samples := Filter(locations + [location], SessionFilter(sessionId));
    match OfficeCount(samples)
    case None => LocationStep(Raised, Appended(location), Unchanged)
    case Some(office) =>
      LocationStep(Returned(Some(location)), Appended(location),
        Patched("id", Str(sessionId), map[
          "total_online_minutes" := Int(|samples|),
          "total_office_minutes" := Int(office)]))
  }

  /** After `record_location` succeeds, the first session with that id counts
      one online minute per sample of the session, the new one included, so
      one more than before, and one office minute per such sample taken
      inside the geofence, so at most as many as online minutes. */
  lemma RecordLocationTotals(settings: Doc, locations: seq<Doc>, sessions: seq<Doc>, user: int, sessionId: string,
                             lat: real, lng: real, now: Now, newId: string, distance: Distance)
    requires RecordLocationStep(settings, locations, user, sessionId, lat, lng, now, newId, distance).result.Returned?
    requires RecordLocationStep(settings, locations, user, sessionId, lat, lng, now, newId, distance).result.value.Some?
    ensures var step := RecordLocationStep(settings, locations, user, sessionId, lat, lng, now, newId, distance);
      var after := Apply(locations, step.locations);
      var online := CountMatching(after, SessionFilter(sessionId));
      && after == locations + [step.result.value.value]
      && online == CountMatching(locations, SessionFilter(sessionId)) + 1
      && (FirstIndex(sessions, "id", Str(sessionId)).Some? ==>
            var s := Apply(sessions, step.sessions)[FirstIndex(sessions, "id", Str(sessionId)).value];
            && s["total_online_minutes"] == Int(online)
            && OfficeCount(Filter(after, SessionFilter(sessionId))).Some?
            && s["total_office_minutes"] == Int(OfficeCount(Filter(after, SessionFilter(sessionId))).value)
            && 0 <= s["total_office_minutes"].i <= online)
  {
    var step := RecordLocationStep(settings, locations, user, sessionId, lat, lng, now, newId, distance);
    var location := step.result.value.value;
    AppendCount(locations, location, SessionFilter(sessionId));
  }

  /** Outside work hours `record_location` stores nothing. */
  lemma RecordLocationClosed(settings: Doc, locations: seq<Doc>, user: int, sessionId: string,
                             lat: real, lng: real, now: Now, newId: string, distance: Distance)
    requires WorkHours(settings, now.clock) == Returned(false)
    ensures RecordLocationStep(settings, locations, user, sessionId, lat, lng, now, newId, distance) ==
      LocationStep(Returned(None), Unchanged, Unchanged)
  {
  }

  // Reports

  /** The filter of one user's report for one day. */
  function ReportFilter(user: int, date: string): Doc {
    map["user_id" := Int(user), "date" := Str(date)]
  }

  /** The day a report is filed under: the given date, or today when it is
      None or empty. */
  function ReportDay(date: Option<string>, now: Now): string {
    if date.None? || date.value == "" then now.date else date.value
  }

  /** `get_user_report`: the first report of the user for that day. */
  function UserReport(reports: seq<Doc>, user: int, date: string): (r: Option<Doc>)
    ensures r.None? <==> forall j :: 0 <= j < |reports| ==> !Matches(reports[j], ReportFilter(user, date))
    ensures r.Some? ==> r.value in reports && Matches(r.value, ReportFilter(user, date))
    ensures r.Some? ==>
      exists i :: 0 <= i < |reports| && reports[i] == r.value && (forall j :: 0 <= j < i ==> !Matches(reports[j], ReportFilter(user, date)))
  {
    FilterHead(reports, ReportFilter(user, date));
    var found := Filter(reports, ReportFilter(user, date));
    if |found| > 0 then Some(found[0]) else None
  }

  /** `submit_report`: updates the content and submission time of the user's
      first report for that day, or appends a new report. */
  function SubmitReportStep(reports: seq<Doc>, user: int, content: string, date: Option<string>, now: Now, newId: string): (r: Step<Doc>)
    ensures r.effect.Appended? <==> UserReport(reports, user, ReportDay(date, now)).None?
    ensures r.effect.Appended? ==> r.result == Returned(r.effect.doc)
    ensures r.result.Raised? ==> r.effect == Unchanged
    ensures r.result.Returned? ==> "content" in r.result.value && r.result.value["content"] == Str(content)
  {
    var day := ReportDay(date, now);
    var existing := Filter(reports, ReportFilter(user, day));
    if |existing| > 0 then ReviseStep(existing[0], content, now.stamp)
    else
      var report := NewReport(newId, user, day, content, now.stamp);
      Step(Returned(report), Appended(report))
  }

  /** The day's existing report given new content: the store gets the content
      and submission time, while the returned report only carries the new
      content. */
  function ReviseStep(existing: Doc, content: string, stamp: string): (r: Step<Doc>)
    ensures r.result.Raised? <==> "id" !in existing
    ensures r.result.Raised? ==> r.effect == Unchanged
    ensures r.result.Returned? ==>
      && r.result.value.Keys == existing.Keys + {"content"}
      && r.result.value["content"] == Str(content)
      && (forall k :: k in existing && k != "content" ==> r.result.value[k] == existing[k])
      && r.effect.Patched? && r.effect.key == "id" && r.effect.value == existing["id"]
      && r.effect.patch == map["content" := Str(content), "submitted_at" := Str(stamp)]
  {
    if "id" !in existing then Step(Raised, Unchanged)
    else
      Step(Returned(existing["content" := Str(content)]),
           Patched("id", existing["id"], map["content" := Str(content), "submitted_at" := Str(stamp)]))
  }

  /** The report `submit_report` creates. */
  function NewReport(id: string, user: int, day: string, content: string, stamp: string): Doc {
    map[
      "id" := Str(id),
      "user_id" := Int(user),
      "date" := Str(day),
      "content" := Str(content),
      "submitted_at" := Str(stamp)]
  }

  /** `submit_report` is an upsert: it adds a report only when the user has
      none for that day, and never changes how many reports match the day. */
  lemma SubmitReportUpserts(reports: seq<Doc>, user: int, content: string, date: Option<string>, now: Now, newId: string)
    ensures var step := SubmitReportStep(reports, user, content, date, now, newId);
      var f := ReportFilter(user, ReportDay(date, now));
      && (step.effect.Appended? <==> CountMatching(reports, f) == 0)
      && CountMatching(Apply(reports, step.effect), f) == CountMatching(reports, f) + (if step.effect.Appended? then 1 else 0)
  {
    var step := SubmitReportStep(reports, user, content, date, now, newId);
    var f := ReportFilter(user, ReportDay(date, now));
    match step.effect
    case Unchanged =>
    case Appended(d) =>
      AppendCount(reports, d, f);
    case Patched(k, v, p) =>
      UpdateFirstKeepsCount(reports, k, v, p, f);
  }

  /** Submitting and then reading the report of that day yields the submitted
      content, as long as report ids are distinct. */
  lemma SubmitThenGet(reports: seq<Doc>, user: int, content: string, date: Option<string>, now: Now, newId: string)
    requires DistinctIds(reports)
    requires SubmitReportStep(reports, user, content, date, now, newId).result.Returned?
    ensures var step := SubmitReportStep(reports, user, content, date, now, newId);
      var got := UserReport(Apply(reports, step.effect), user, ReportDay(date, now));
      got.Some? && "content" in got.value && got.value["content"] == Str(content)
  {
    var step := SubmitReportStep(reports, user, content, date, now, newId);
    var f := ReportFilter(user, ReportDay(date, now));
    FilterHead(reports, f);
    if step.effect.Appended? {
      SubmitAppendedGet(reports, step.effect.doc, f, content);
    } else {
      var i := FirstWhere(reports, f).value;
      SubmitPatchedGet(reports, i, f, step.effect.patch, content);
    }
  }

  /** A new report matching the day's filter, appended when none matched, is
      what the filter finds first. */
  lemma SubmitAppendedGet(reports: seq<Doc>, d: Doc, f: Doc, content: string)
    requires Filter(reports, f) == [] && Matches(d, f)
    requires "content" in d && d["content"] == Str(content)
    ensures Filter(reports + [d], f) == [d]
  {
    FilterSnoc(reports, d, f);
  }

  /** Patching the first match of the day's filter, found again by its unique
      id, leaves the patched report first under the filter. */
  lemma SubmitPatchedGet(reports: seq<Doc>, i: nat, f: Doc, p: Doc, content: string)
    requires DistinctIds(reports)
    requires FirstWhere(reports, f) == Some(i) && "id" in reports[i]
    requires f.Keys !! p.Keys
    requires "content" in p && p["content"] == Str(content)
    ensures var after := UpdateFirst(reports, "id", reports[i]["id"], p);
      Filter(after, f) != [] && Filter(after, f)[0] == reports[i] + p
  {
    var v := reports[i]["id"];
    assert Get(reports[i], "id") == v;
    PyEqIsEquivalence(v, v, v);
    assert FirstIndex(reports, "id", v) == Some(i);
    var after := UpdateFirst(reports, "id", v, p);
    assert after == reports[i := reports[i] + p];
    MergeKeepsMatch(reports[i], p, f);
    FirstWhereAfterReplace(reports, i, reports[i] + p, f);
    FilterHead(after, f);
  }
}

=== FILE: backend_db.dfy ===
/** The web backend's JSON record store (a thread-locked `JsonDB`) and the
    settings record kept in it. Every operation is modelled as one step on
    the store's files; the per-file locks only matter under concurrency. */
module BackendDb {
  import opened Docs
  import opened Records
  import opened Storage

  const USERS_FILE := "users.json"
  const SESSIONS_FILE := "sessions.json"
  const LOCATIONS_FILE := "locations.json"
  const REPORTS_FILE := "reports.json"
  const SETTINGS_FILE := "settings.json"

  /** The files after `write` (or `write_single`) of `data` to `name`. The
      backend opens the target itself with mode "w", so a failure after the
      open leaves a truncated file behind, and a failed open leaves it as it was. */
  function AfterWrite<T>(m: map<string, Persisted<T>>, name: string, data: T, fault: IoFault): (r: map<string, Persisted<T>>)
    ensures fault == NoFault ==> StateOf(r, name) == Present(data)
    ensures fault == CannotOpen ==> r == m
    ensures fault == FailsMidWrite ==> StateOf(r, name) == Corrupt
    ensures forall other :: other != name ==> StateOf(r, other) == StateOf(m, other)
  {
    match fault
    case NoFault => m[name := Present(data)]
    case CannotOpen => m
    case FailsMidWrite => m[name := Corrupt]
  }

  class JsonDB {
    /** Collection files: each holds a JSON list of documents. */
    var files: map<string, Persisted<seq<Doc>>>
    /** Single-record files (the settings record): each holds one JSON object. */
    var records: map<string, Persisted<Doc>>

    /** A store over the files already on disk. */
    constructor (onDisk: map<string, Persisted<seq<Doc>>>, recordsOnDisk: map<string, Persisted<Doc>>)
      ensures files == onDisk && records == recordsOnDisk
    {
      files := onDisk;
      records := recordsOnDisk;
    }

    function State(name: string): Persisted<seq<Doc>>
      reads this
    {
      StateOf(files, name)
    }

    /** The documents `read(name)` returns in the current state. */
    function Collection(name: string): seq<Doc>
      reads this
    {
      Loaded(State(name))
    }

    function RecordState(name: string): Persisted<Doc>
      reads this
    {
      StateOf(records, name)
    }

    /** `read`: the stored list, or [] when the file is missing or cannot be
        decoded or parsed; the bare `except` also swallows UnicodeDecodeError. */
    method Read(name: string) returns (docs: seq<Doc>)
      ensures State(name).Present? ==> docs == State(name).content
      ensures !State(name).Present? ==> docs == []
    {
      if name !in files {
        return [];
      }
      match files[name]
      case Missing => docs := [];
      case Corrupt => docs := [];
      case Undecodable => docs := [];
      case Present(d) => docs := d;
    }

    /** `write`: replaces the whole collection; True exactly when the write succeeded. */
    method Write(name: string, data: seq<Doc>, fault: IoFault) returns (ok: bool)
      modifies this
      ensures ok <==> fault == NoFault
      ensures files == AfterWrite(old(files), name, data, fault)
      ensures records == old(records)
    {
      match fault
      case NoFault =>
        files := files[name := Present(data)];
        ok := true;
      case CannotOpen =>
        ok := false;
      case FailsMidWrite =>
        files := files[name := Corrupt];
        ok := false;
    }

    /** `read_single`: the stored record, or None when it is missing or cannot
        be decoded or parsed. */
    method ReadSingle(name: string) returns (r: Option<Doc>)
      ensures RecordState(name).Present? ==> r == Some(RecordState(name).content)
      ensures !RecordState(name).Present? ==> r == None
    {
      if name !in records {
        return None;
      }
      match records[name]
      case Missing => r := None;
      case Corrupt => r := None;
      case Undecodable => r := None;
      case Present(d) => r := Some(d);
    }

    /** `write_single`: replaces the whole record; True exactly when the write succeeded. */
    method WriteSingle(name: string, data: Doc, fault: IoFault) returns (ok: bool)
      modifies this
      ensures ok <==> fault == NoFault
      ensures records == AfterWrite(old(records), name, data, fault)
      ensures files == old(files)
    {
      match fault
      case NoFault =>
        records := records[name := Present(data)];
        ok := true;
      case CannotOpen =>
        ok := false;
      case FailsMidWrite =>
        records := records[name := Corrupt];
        ok := false;
    }

    /** `append`: reads the collection, adds `item` at the end and writes the
        list back. A file that cannot be decoded or parsed reads as [] and is
        then overwritten, so its previous contents are lost. */
    method Append(name: string, item: Doc, fault: IoFault) returns (ok: bool)
      modifies this
      ensures ok <==> fault == NoFault
      ensures files == AfterWrite(old(files), name, old(Collection(name)) + [item], fault)
      ensures records == old(records)
      ensures ok ==> Collection(name) == old(Collection(name)) + [item]
      ensures ok && !old(State(name)).Present? ==> State(name) == Present([item])
    {
      var data := Read(name);
      assert !State(name).Present? ==> data + [item] == [item];
      data := data + [item];
      ok := Write(name, data, fault);
    }

    /** `find_one`: the first document, in stored order, whose `key` equals
        `value` (a missing key reads as None); None when there is none. */
    method FindOne(name: string, key: string, value: Value) returns (r: Option<Doc>)
      ensures r == FirstMatch(Collection(name), key, value)
      ensures r.None? <==> forall j :: 0 <= j < |Collection(name)| ==> !PyEq(Get(Collection(name)[j], key), value)
      ensures r.Some? ==> r.value in Collection(name) && PyEq(Get(r.value, key), value)
    {
      var data := Read(name);
      var i := 0;
      while i < |data|
        invariant 0 <= i <= |data|
        invariant forall j :: 0 <= j < i ==> !PyEq(Get(data[j], key), value)
      {
        if PyEq(Get(data[i], key), value) {
          return Some(data[i]);
        }
        i := i + 1;
      }
      return None;
    }

    /** `update`: merges `patch` into the first matching document and writes
        the collection back; False without writing when nothing matches. */
    method Update(name: string, key: string, value: Value, patch: Doc, fault: IoFault) returns (ok: bool)
      modifies this
      ensures FirstIndex(old(Collection(name)), key, value).None? ==> !ok && files == old(files)
      ensures FirstIndex(old(Collection(name)), key, value).Some? ==>
        && (ok <==> fault == NoFault)
        && files == AfterWrite(old(files), name, UpdateFirst(old(Collection(name)), key, value, patch), fault)
      ensures records == old(records)
    {
      var data := Read(name);
      var i := 0;
      while i < |data|
        invariant 0 <= i <= |data|
        invariant forall j :: 0 <= j < i ==> !PyEq(Get(data[j], key), value)
      {
        if PyEq(Get(data[i], key), value) {
          data := data[i := data[i] + patch];
          ok := Write(name, data, fault);
          return;
        }
        i := i + 1;
      }
      return false;
    }

    /** `find_many`: in stored order, exactly the documents matching every
        filter pair; the whole collection for an empty filter. */
    method FindMany(name: string, filters: Doc) returns (r: seq<Doc>)
      ensures r == Filter(Collection(name), filters)
      ensures forall d :: d in r <==> d in Collection(name) && Matches(d, filters)
      ensures filters == map[] ==> r == Collection(name)
    {
      var data := Read(name);
      r := Filter(data, filters);
      forall d ensures d in r <==> d in data && Matches(d, filters) {
        FilterMembers(data, filters, d);
      }
      if filters == map[] {
        FilterEmpty(data);
      }
    }
  }

  /** `get_default_settings`: 09:00-18:00 work hours, 13:00-14:00 lunch and a
      100 m geofence around (41.311081, 69.240562). */
  function DefaultSettings(): (r: Doc)
    ensures !NeedsDefaults(Present(r))
    ensures "work_start" in r && r["work_start"] == Str("09:00")
    ensures "work_end" in r && r["work_end"] == Str("18:00")
    ensures "lunch_start" in r && r["lunch_start"] == Str("13:00")
    ensures "lunch_end" in r && r["lunch_end"] == Str("14:00")
    ensures "geofence" in r && r["geofence"].Obj? && r["geofence"].fields.Keys == {"center_lat", "center_lng", "radius_meters"}
    ensures "geofence" in r && r["geofence"] == Obj(map[
      "center_lat" := Float(41.311081), "center_lng" := Float(69.240562), "radius_meters" := Int(100)])
  {
    var d := map[
      "work_start" := Str("09:00"),
      "work_end" := Str("18:00"),
      "lunch_start" := Str("13:00"),
      "lunch_end" := Str("14:00"),
      "geofence" := Obj(map[
        "center_lat" := Float(41.311081),
        "center_lng" := Float(69.240562),
        "radius_meters" := Int(100)])];
    assert "work_start" in d;
    d
  }

  /** Whether `get_settings` falls back to the defaults: the record is missing,
      unreadable, or an empty (falsy) object. */
  predicate NeedsDefaults(st: Persisted<Doc>) {
    !st.Present? || st.content == map[]
  }

  /** The settings `get_settings` returns for a stored settings state. */
  function EffectiveSettings(st: Persisted<Doc>): (r: Doc)
    ensures r != map[]
    ensures st.Present? && st.content != map[] ==> r == st.content
    ensures NeedsDefaults(st) ==> r == DefaultSettings()
  {
    if NeedsDefaults(st) then DefaultSettings() else st.content
  }

  /** The single-record files after `get_settings`: the defaults are written
      back when they were used. */
  function AfterGetSettings(m: map<string, Persisted<Doc>>, fault: IoFault): map<string, Persisted<Doc>> {
    if NeedsDefaults(StateOf(m, SETTINGS_FILE)) then AfterWrite(m, SETTINGS_FILE, DefaultSettings(), fault) else m
  }

  /** `get_settings`: callers never see missing or empty settings, and once the
      defaults have been persisted a second call reads back the same record
      and writes nothing. */
  method GetSettings(db: JsonDB, fault: IoFault) returns (s: Doc)
    modifies db
    ensures s == EffectiveSettings(old(db.RecordState(SETTINGS_FILE)))
    ensures s != map[]
    ensures db.files == old(db.files)
    ensures db.records == AfterGetSettings(old(db.records), fault)
    ensures fault == NoFault ==> db.RecordState(SETTINGS_FILE) == Present(s) && !NeedsDefaults(db.RecordState(SETTINGS_FILE))
  {
    var stored := db.ReadSingle(SETTINGS_FILE);
    if stored.None? || stored.value == map[] {
      s := DefaultSettings();
      assert "work_start" in s;
      var _ := db.WriteSingle(SETTINGS_FILE, s, fault);
    } else {
      s := stored.value;
    }
  }

  /** Reading the settings back after `get_settings` succeeded yields the same
      record and needs no further write. */
  lemma GetSettingsIdempotent(m: map<string, Persisted<Doc>>)
    ensures EffectiveSettings(StateOf(AfterGetSettings(m, NoFault), SETTINGS_FILE)) == EffectiveSettings(StateOf(m, SETTINGS_FILE))
    ensures AfterGetSettings(AfterGetSettings(m, NoFault), NoFault) == AfterGetSettings(m, NoFault)
  {
  }

  /** `save_settings`: stamps `updated_at` into the caller's dictionary, which
      the caller then holds as `stamped`, and replaces the whole settings
      record with it. The stamp is set before the write, so the caller sees it
      whether or not the write succeeds. */
  method SaveSettings(db: JsonDB, settings: Doc, stamp: string, fault: IoFault) returns (ok: bool, stamped: Doc)
    modifies db
    ensures stamped.Keys == settings.Keys + {"updated_at"} && stamped["updated_at"] == Str(stamp)
    ensures forall k :: k in settings && k != "updated_at" ==> stamped[k] == settings[k]
    ensures ok <==> fault == NoFault
    ensures db.records == AfterWrite(old(db.records), SETTINGS_FILE, stamped, fault)
    ensures db.files == old(db.files)
    ensures ok ==> db.RecordState(SETTINGS_FILE) == Present(stamped)
  {
    stamped := settings["updated_at" := Str(stamp)];
    ok := db.WriteSingle(SETTINGS_FILE, stamped, fault);
  }
}

=== FILE: bot_db.dfy ===
/** The Telegram bot's JSON record store (an asyncio-locked `JsonDB`). Its
    coroutines are modelled one after another; every write goes to a temporary
    file that then replaces the target, so a failed write leaves the target
    file as it was. The store's methods catch only `JSONDecodeError` and
    `IOError`: a file that is not UTF-8 text makes `json.load` raise
    UnicodeDecodeError, which escapes every method that reads the file. */
module BotDb {
  import opened Docs
  import opened Records
  import opened Storage

  class JsonDB {
    /** Collection files: each holds a JSON list of documents. */
    var files: map<string, Persisted<seq<Doc>>>

    /** A store over the files already on disk. */
    constructor (onDisk: map<string, Persisted<seq<Doc>>>)
      ensures files == onDisk
    {
      files := onDisk;
    }

    function State(name: string): Persisted<seq<Doc>>
      reads this
    {
      StateOf(files, name)
    }

    /** The documents `read(name)` returns when it returns. */
    function Collection(name: string): seq<Doc>
      reads this
    {
      Loaded(State(name))
    }

    /** `read`: the stored list, or [] when the file is missing, unparseable
        or raises an I/O error; a file that is not UTF-8 text raises. */
    method Read(name: string) returns (r: Outcome<seq<Doc>>)
      ensures r.Raised? <==> State(name).Undecodable?
      ensures State(name).Present? ==> r == Returned(State(name).content)
      ensures State(name).Missing? || State(name).Corrupt? ==> r == Returned([])
    {
      if name !in files {
        return Returned([]);
      }
      match files[name]
      case Missing => r := Returned([]);
      case Corrupt => r := Returned([]);
      case Undecodable => r := Raised;
      case Present(d) => r := Returned(d);
    }

    /** The temp-file-and-replace step shared by `write`, `append` and `update`:
        on an I/O error nothing replaces the target. */
    method Replace(name: string, data: seq<Doc>, fault: IoFault) returns (ok: bool)
      modifies this
      ensures ok <==> fault == NoFault
      ensures files == if ok then old(files)[name := Present(data)] else old(files)
    {
      if fault == NoFault {
        files := files[name := Present(data)];
        ok := true;
      } else {
        ok := false;
      }
    }

    /** `write`: replaces the whole collection; on an I/O error it returns False
        and the previous contents stay in place. */
    method Write(name: string, data: seq<Doc>, fault: IoFault) returns (ok: bool)
      modifies this
      ensures ok <==> fault == NoFault
      ensures ok ==> State(name) == Present(data)
      ensures files == if ok then old(files)[name := Present(data)] else old(files)
    {
      ok := Replace(name, data, fault);
    }

    /** `append`: reads and writes under one lock hold. A missing file starts
        a new list; an unparseable file makes it return False, and a file that
        is not UTF-8 text makes it raise, both leaving the file untouched. */
    method Append(name: string, item: Doc, fault: IoFault) returns (r: Outcome<bool>)
      modifies this
      ensures r.Raised? <==> old(State(name)).Undecodable?
      ensures r == Returned(true) <==> fault == NoFault && (old(State(name)).Missing? || old(State(name)).Present?)
      ensures r == Returned(true) ==> Collection(name) == old(Collection(name)) + [item]
      ensures r == Returned(true) && old(State(name)).Missing? ==> State(name) == Present([item])
      ensures files == if r == Returned(true) then old(files)[name := Present(old(Collection(name)) + [item])] else old(files)
    {
      if State(name).Undecodable? {
        return Raised;
      }
      if State(name).Corrupt? {
        return Returned(false);
      }
      var data := if State(name).Present? then State(name).content else [];
      assert old(State(name)).Missing? ==> data + [item] == [item];
      data := data + [item];
      var ok := Replace(name, data, fault);
      r := Returned(ok);
    }

    /** `find_one`: the first document, in stored order, whose `key` equals
        `value`; None when there is none. It raises where `read` raises. */
    method FindOne(name: string, key: string, value: Value) returns (r: Outcome<Option<Doc>>)
      ensures r.Raised? <==> State(name).Undecodable?
      ensures r.Returned? ==> r.value == FirstMatch(Collection(name), key, value)
      ensures r == Returned(None) <==>
        !State(name).Undecodable? && forall j :: 0 <= j < |Collection(name)| ==> !PyEq(Get(Collection(name)[j], key), value)
    {
      var read := Read(name);
      if read.Raised? {
        return Raised;
      }
      var data := read.value;
      var i := 0;
      while i < |data|
        invariant 0 <= i <= |data|
        invariant forall j :: 0 <= j < i ==> !PyEq(Get(data[j], key), value)
      {
        if PyEq(Get(data[i], key), value) {
          return Returned(Some(data[i]));
        }
        i := i + 1;
      }
      return Returned(None);
    }

    /** `update`: False for a missing or unparseable file, and a raise for one
        that is not UTF-8 text; otherwise merges `patch` into the first matching
        document only (the loop breaks there) and writes the list back, or
        returns False without writing when nothing matches. */
    method Update(name: string, key: string, value: Value, patch: Doc, fault: IoFault) returns (r: Outcome<bool>)
      modifies this
      ensures r.Raised? <==> old(State(name)).Undecodable?
      ensures !old(State(name)).Present? ==> r != Returned(true) && files == old(files)
      ensures FirstIndex(old(Collection(name)), key, value).None? ==> r != Returned(true) && files == old(files)
      ensures old(State(name)).Present? && FirstIndex(old(Collection(name)), key, value).Some? ==>
        && (r == Returned(true) <==> fault == NoFault)
        && files == if r == Returned(true) then old(files)[name := Present(UpdateFirst(old(Collection(name)), key, value, patch))] else old(files)
    {
      if State(name).Undecodable? {
        return Raised;
      }
      if !State(name).Present? {
        return Returned(false);
      }
      var data := State(name).content;
      var found := false;
      var i := 0;
      while i < |data|
        invariant 0 <= i <= |data|
        invariant !found ==> data == old(Collection(name))
        invariant !found ==> forall j :: 0 <= j < i ==> !PyEq(Get(data[j], key), value)
        invariant found ==> data == UpdateFirst(old(Collection(name)), key, value, patch)
        invariant found ==> FirstIndex(old(Collection(name)), key, value).Some?
      {
        if PyEq(Get(data[i], key), value) {
          data := data[i := data[i] + patch];
          found := true;
          break;
        }
        i := i + 1;
      }
      if !found {
        return Returned(false);
      }
      var ok := Replace(name, data, fault);
      r := Returned(ok);
    }

    /** `find_many`: in stored order, exactly the documents matching every
        filter pair; the whole collection for an empty filter. It raises where
        `read` raises. */
    method FindMany(name: string, filters: Doc) returns (r: Outcome<seq<Doc>>)
      ensures r.Raised? <==> State(name).Undecodable?
      ensures r.Returned? ==> r.value == Filter(Collection(name), filters)
      ensures r.Returned? ==> forall d :: d in r.value <==> d in Collection(name) && Matches(d, filters)
      ensures r.Returned? && filters == map[] ==> r.value == Collection(name)
    {
      var read := Read(name);
      if read.Raised? {
        return Raised;
      }
      var data := read.value;
      var found := Filter(data, filters);
      forall d ensures d in found <==> d in data && Matches(d, filters) {
        FilterMembers(data, filters, d);
      }
      if filters == map[] {
        FilterEmpty(data);
      }
      r := Returned(found);
    }

    /** `count`: the length of `read` without filters, the length of the
        `find_many` result with them; an empty filter map counts everything.
        It raises where `read` raises. */
    method Count(name: string, filters: Option<Doc>) returns (r: Outcome<nat>)
      ensures r.Raised? <==> State(name).Undecodable?
      ensures r.Returned? && filters.None? ==> r.value == |Collection(name)|
      ensures r.Returned? && filters.Some? ==> r.value == CountMatching(Collection(name), filters.value)
      ensures r.Returned? && filters == Some(map[]) ==> r.value == |Collection(name)|
      ensures r.Returned? ==> r.value <= |Collection(name)|
    {
      var read := Read(name);
      if read.Raised? {
        return Raised;
      }
      var data := read.value;
      if filters.None? {
        return Returned(|data|);
      }
      if filters.value == map[] {
        FilterEmpty(data);
      }
      r := Returned(|Filter(data, filters.value)|);
    }
  }
}

=== FILE: calendar.dfy ===
/** Calendar dates as the chart loop handles them: the proleptic Gregorian
    calendar of Python's `datetime` (years 1 to 9999), dates written
    "YYYY-MM-DD" (the extended calendar-date format of ISO 8601:2004,
    section 4.1.2.2), read with `strptime(s, "%Y-%m-%d")`, stepped with
    `+ timedelta(days=1)` and compared as (year, month, day). */
module Calendar {
  import opened Docs
  import opened Text

  datatype Date = Date(year: int, month: int, day: int)

  /** Gregorian leap years: every fourth year, except centuries not divisible by 400. */
  predicate IsLeapYear(y: int) {
    y % 4 == 0 && (y % 100 != 0 || y % 400 == 0)
  }

  function DaysInMonth(y: int, m: int): int
    requires 1 <= m <= 12
  {
    if m == 2 then (if IsLeapYear(y) then 29 else 28)
    else if m == 4 || m == 6 || m == 9 || m == 11 then 30
    else 31
  }

  /** A date `datetime` can represent. */
  predicate Valid(d: Date) {
    1 <= d.year <= 9999 && 1 <= d.month <= 12 && 1 <= d.day <= DaysInMonth(d.year, d.month)
  }

  /** The last representable date; adding a day to it raises OverflowError. */
  const LastDate := Date(9999, 12, 31)

  function YearLength(y: int): int {
    if IsLeapYear(y) then 366 else 365
  }

  function DaysBeforeYear(y: int): int
    decreases y
  {
    if y <= 1 then 0 else DaysBeforeYear(y - 1) + YearLength(y - 1)
  }

  function DaysBeforeMonth(y: int, m: int): int
    requires 1 <= m <= 12
  {
    var table := [0, 31, 59, 90, 120, 151, 181, 212, 243, 273, 304, 334];
    table[m - 1] + (if m > 2 && IsLeapYear(y) then 1 else 0)
  }

  /** Day number with 0001-01-01 as day 1 (`date.toordinal`). */
  function Ordinal(d: Date): int
    requires Valid(d)
  {
    DaysBeforeYear(d.year) + DaysBeforeMonth(d.year, d.month) + d.day
  }

  /** Python's `<=` on dates: by year, then month, then day. */
  predicate DateLe(a: Date, b: Date) {
    a.year < b.year || (a.year == b.year && (a.month < b.month || (a.month == b.month && a.day <= b.day)))
  }

  /** No representable date comes after 9999-12-31. */
  lemma UpToLastDate(d: Date)
    requires Valid(d)
    ensures DateLe(d, LastDate)
  {
    assert DaysInMonth(d.year, d.month) <= 31;
  }

  lemma MonthStep(y: int, m: int)
    requires 1 <= m < 12
    ensures DaysBeforeMonth(y, m + 1) == DaysBeforeMonth(y, m) + DaysInMonth(y, m)
  {
  }

  lemma YearEnd(y: int)
    ensures DaysBeforeMonth(y, 12) + DaysInMonth(y, 12) == YearLength(y)
  {
  }

  /** `d + timedelta(days=1)`; None where Python raises OverflowError. */
  function NextDay(d: Date): (r: Option<Date>)
    requires Valid(d)
    ensures r.None? <==> d == LastDate
    ensures r.Some? ==> Valid(r.value) && Ordinal(r.value) == Ordinal(d) + 1
  {
    if d.day < DaysInMonth(d.year, d.month) then Some(Date(d.year, d.month, d.day + 1))
    else if d.month < 12 then
      MonthStep(d.year, d.month);
      Some(Date(d.year, d.month + 1, 1))
    else if d.year < 9999 then
      YearEnd(d.year);
      Some(Date(d.year + 1, 1, 1))
    else None
  }

  lemma {:induction false} DaysBeforeYearGrows(y1: int, y2: int)
    requires 1 <= y1 <= y2
    ensures DaysBeforeYear(y1) + (y2 - y1) * 365 <= DaysBeforeYear(y2)
    decreases y2 - y1
  {
    if y1 < y2 {
      DaysBeforeYearGrows(y1, y2 - 1);
    }
  }

  /** Every day of a month lies before the start of any later month. */
  lemma MonthsInOrder(y: int, m1: int, d1: int, m2: int)
    requires 1 <= m1 < m2 <= 12 && 1 <= d1 <= DaysInMonth(y, m1)
    ensures DaysBeforeMonth(y, m1) + d1 <= DaysBeforeMonth(y, m2)
  {
  }

  lemma DayOfYearBound(d: Date)
    requires Valid(d)
    ensures DaysBeforeMonth(d.year, d.month) + d.day <= YearLength(d.year)
  {
    YearEnd(d.year);
    if d.month < 12 {
      MonthsInOrder(d.year, d.month, d.day, 12);
    }
  }

  /** A date strictly before another (by year, month, day) has a smaller day number. */
  lemma OrdinalStrictlyIncreasing(a: Date, b: Date)
    requires Valid(a) && Valid(b) && DateLe(a, b) && a != b
    ensures Ordinal(a) < Ordinal(b)
  {
    if a.year < b.year {
      DayOfYearBound(a);
      DaysBeforeYearGrows(a.year + 1, b.year);
      assert DaysBeforeYear(a.year + 1) == DaysBeforeYear(a.year) + YearLength(a.year);
    } else if a.month < b.month {
      MonthsInOrder(a.year, a.month, a.day, b.month);
    }
  }

  /** Comparing dates as (year, month, day) is comparing their day numbers. */
  lemma DateLeIsOrdinalOrder(a: Date, b: Date)
    requires Valid(a) && Valid(b)
    ensures DateLe(a, b) <==> Ordinal(a) <= Ordinal(b)
  {
    if DateLe(a, b) && a != b {
      OrdinalStrictlyIncreasing(a, b);
    } else if !DateLe(a, b) {
      OrdinalStrictlyIncreasing(b, a);
    }
  }

  /** Two valid dates with the same day number are the same date. */
  lemma OrdinalInjective(a: Date, b: Date)
    requires Valid(a) && Valid(b) && Ordinal(a) == Ordinal(b)
    ensures a == b
  {
    DateLeIsOrdinalOrder(a, b);
    DateLeIsOrdinalOrder(b, a);
  }

  /** Four zero-padded digits, as `%Y` prints a year. */
  function Pad4(n: nat): (s: string)
    requires n < 10000
    ensures |s| == 4 && AllDigits(s) && DigitValue(s) == n
  {
    var hi, lo := Pad2(n / 100), Pad2(n % 100);
    DigitValueConcat(hi, lo);
    DigitCountAllDigits(lo);
    assert Pow10(2) == 100;
    hi + lo
  }

  /** `strftime("%Y-%m-%d")`. */
  function Format(d: Date): (s: string)
    requires Valid(d)
    ensures |s| == 10
  {
    Pad4(d.year) + "-" + Pad2(d.month) + "-" + Pad2(d.day)
  }

  /** The month field of `%m` (`1[0-2]|0[1-9]|[1-9]`): 01-12 or a single digit 1-9. */
  function MonthField(f: string): Option<int> {
    if 1 <= |f| <= 2 && AllDigits(f) && 1 <= DigitValue(f) <= 12 then Some(DigitValue(f)) else None
  }

  /** The day field of `%d` (`3[01]|[12]\d|0[1-9]|[1-9]| [1-9]`): 01-31, a
      single digit 1-9, or a space followed by 1-9. */
  function DayField(f: string): Option<int> {
    if 1 <= |f| <= 2 && AllDigits(f) && 1 <= DigitValue(f) <= 31 then Some(DigitValue(f))
    else if |f| == 2 && f[0] == ' ' && IsDigit(f[1]) && f[1] != '0' then Some(DigitOf(f[1]))
    else None
  }

  /** `datetime.strptime(s, "%Y-%m-%d")`, None where it raises ValueError: the
      year is exactly four digits, the month and day fields follow the
      patterns above, nothing may follow the day, and the date must exist
      (year 0 and 2023-02-29 are rejected). */
  function ParseDate(s: string): (r: Option<Date>)
    ensures r.Some? ==> Valid(r.value)
  {
    if |s| < 5 || !AllDigits(s[..4]) || s[4] != '-' then None
    else
      var rest := s[5..];
      var split := if |rest| >= 2 && rest[1] == '-' then 1 else 2;
      if |rest| < split + 1 || rest[split] != '-' then None
      else
        match (MonthField(rest[..split]), DayField(rest[split + 1..]))
        case (Some(m), Some(d)) =>
          var date := Date(DigitValue(s[..4]), m, d);
          if Valid(date) then Some(date) else None
        case _ => None
  }

  /** What `strftime` writes is what `strptime` reads back. */
  lemma DateRoundTrip(d: Date)
    requires Valid(d)
    ensures ParseDate(Format(d)) == Some(d)
  {
    var s := Format(d);
    assert s[..4] == Pad4(d.year);
    var rest := s[5..];
    assert rest == Pad2(d.month) + "-" + Pad2(d.day);
    assert rest[..2] == Pad2(d.month) && rest[3..] == Pad2(d.day);
    assert IsDigit(rest[..2][1]);
  }

  /** The digits of a formatted date spell YYYYMMDD. */
  lemma FormatDigits(d: Date)
    requires Valid(d)
    ensures DigitValue(Format(d)) == d.year * 10000 + d.month * 100 + d.day
  {
    var y, m, dd := Pad4(d.year), Pad2(d.month), Pad2(d.day);
    assert Format(d) == y + ("-" + (m + ("-" + dd)));
    DigitCountAllDigits(y);
    DigitCountAllDigits(m);
    DigitCountAllDigits(dd);
    assert DigitValue("-") == 0 && DigitCount("-") == 0;
    DigitValueConcat("-", dd);
    DigitCountConcat("-", dd);
    DigitValueConcat(m, "-" + dd);
    DigitCountConcat(m, "-" + dd);
    DigitValueConcat("-", m + ("-" + dd));
    DigitCountConcat("-", m + ("-" + dd));
    DigitValueConcat(y, "-" + (m + ("-" + dd)));
    assert Pow10(2) == 100 && Pow10(4) == 10000;
  }

  lemma FormatShape(a: Date, b: Date)
    requires Valid(a) && Valid(b)
    ensures SameShape(Format(a), Format(b))
  {
    var fa, fb := Format(a), Format(b);
    forall i | 0 <= i < 10
      ensures IsDigit(fa[i]) <==> IsDigit(fb[i])
      ensures !IsDigit(fa[i]) ==> fa[i] == fb[i]
    {
      if i < 4 {
        assert fa[i] == Pad4(a.year)[i] && fb[i] == Pad4(b.year)[i];
      } else if 4 < i < 7 {
        assert fa[i] == Pad2(a.month)[i - 5] && fb[i] == Pad2(b.month)[i - 5];
      } else if 7 < i {
        assert fa[i] == Pad2(a.day)[i - 8] && fb[i] == Pad2(b.day)[i - 8];
      }
    }
  }

  /** Comparing "YYYY-MM-DD" strings as text, as the range filter does,
      compares the dates they write. */
  lemma FormatOrder(a: Date, b: Date)
    requires Valid(a) && Valid(b)
    ensures LexLe(Format(a), Format(b)) <==> DateLe(a, b)
  {
    FormatShape(a, b);
    LexLeIsNumericOrder(Format(a), Format(b));
    FormatDigits(a);
    FormatDigits(b);
  }

  /** The days from `start` to `end` inclusive, one after another; empty when
      `start` is after `end`. */
  function DayRange(start: Date, end: Date): (r: seq<Date>)
    requires Valid(start) && Valid(end)
    ensures forall k :: 0 <= k < |r| ==> Valid(r[k])
    decreases Ordinal(end) - Ordinal(start) + 1
  {
    if !DateLe(start, end) then []
    else
      DateLeIsOrdinalOrder(start, end);
      match NextDay(start)
      case None => [start]
      case Some(next) => [start] + DayRange(next, end)
  }

  /** One step of a day-by-day walk from `d` to `end`. */
  lemma DayRangeStep(d: Date, end: Date)
    requires Valid(d) && Valid(end)
    ensures !DateLe(d, end) ==> DayRange(d, end) == []
    ensures DateLe(d, end) && NextDay(d).None? ==> end == LastDate && DayRange(d, end) == [d]
    ensures DateLe(d, end) && NextDay(d).Some? ==> DayRange(d, end) == [d] + DayRange(NextDay(d).value, end)
  {
  }

  /** A walk from `s` that has emitted `done` and stands past `e` has emitted
      the whole range, and `e` is not the last date (no valid day lies past it). */
  lemma WalkExit(s: Date, e: Date, current: Date, done: seq<Date>)
    requires Valid(s) && Valid(e) && Valid(current)
    requires DayRange(s, e) == done + DayRange(current, e)
    requires !DateLe(current, e)
    ensures e != LastDate && done == DayRange(s, e)
  {
    DayRangeStep(current, e);
    UpToLastDate(current);
  }

  /** A walk from `s` that reaches a day within the range with no next day
      is a non-empty walk ending at 9999-12-31. */
  lemma WalkOverflow(s: Date, e: Date, current: Date, done: seq<Date>)
    requires Valid(s) && Valid(e) && Valid(current)
    requires DayRange(s, e) == done + DayRange(current, e)
    requires DateLe(current, e) && NextDay(current).None?
    ensures DateLe(s, e) && e == LastDate
  {
    DayRangeStep(current, e);
    DayRangeStep(s, e);
  }

  /** Walking past day `d` moves it from the days still to walk to the days
      walked: the concatenation of the two stays the same. */
  lemma DayRangeAdvance(done: seq<Date>, d: Date, end: Date)
    requires Valid(d) && Valid(end) && DateLe(d, end) && NextDay(d).Some?
    ensures done + DayRange(d, end) == (done + [d]) + DayRange(NextDay(d).value, end)
  {
    DayRangeStep(d, end);
    assert done + ([d] + DayRange(NextDay(d).value, end)) == (done + [d]) + DayRange(NextDay(d).value, end);
  }

  /** The range holds one day for every day number from `start` to `end`:
      it has end - start + 1 entries, the k-th is k days after `start`, and
      each entry is followed by its next day. */
  lemma {:induction false} DayRangeDays(start: Date, end: Date)
    requires Valid(start) && Valid(end)
    ensures |DayRange(start, end)| == if DateLe(start, end) then Ordinal(end) - Ordinal(start) + 1 else 0
    ensures forall k :: 0 <= k < |DayRange(start, end)| ==>
      Valid(DayRange(start, end)[k]) && Ordinal(DayRange(start, end)[k]) == Ordinal(start) + k
    ensures forall k :: 0 <= k < |DayRange(start, end)| ==> DateLe(start, DayRange(start, end)[k]) && DateLe(DayRange(start, end)[k], end)
    ensures forall k :: 0 < k < |DayRange(start, end)| ==> NextDay(DayRange(start, end)[k - 1]) == Some(DayRange(start, end)[k])
    decreases Ordinal(end) - Ordinal(start) + 1
  {
    var r := DayRange(start, end);
    if DateLe(start, end) {
      DateLeIsOrdinalOrder(start, end);
      match NextDay(start)
      case None =>
        assert start == LastDate;
        DateLeIsOrdinalOrder(end, LastDate);
      case Some(next) =>
        DayRangeDays(next, end);
        var tail := DayRange(next, end);
        assert r == [start] + tail;
        if !DateLe(next, end) {
          DateLeIsOrdinalOrder(next, end);
        }
        forall k | 0 <= k < |r|
          ensures Valid(r[k]) && Ordinal(r[k]) == Ordinal(start) + k
          ensures DateLe(start, r[k]) && DateLe(r[k], end)
        {
          if k > 0 {
            assert r[k] == tail[k - 1];
            DateLeIsOrdinalOrder(start, r[k]);
          }
        }
        forall k | 0 < k < |r|
          ensures NextDay(r[k - 1]) == Some(r[k])
        {
          if k > 1 {
            assert r[k - 1] == tail[k - 2] && r[k] == tail[k - 1];
          }
        }
    }
  }
}

=== FILE: clock.dfy ===
/** Times of day as the services handle them: "HH:MM" strings, read back with
    `datetime.strptime(s, "%H:%M")` and produced by `strftime("%H:%M")`. A time
    is modelled as minutes since midnight. */
module Clock {
  import opened Docs
  import opened Text

  /** One numeric field of `strptime`: one or two ASCII digits with a value
      of at most `max`. */
  function Field(f: string, max: nat): Option<nat> {
    if 1 <= |f| <= 2 && AllDigits(f) && DigitValue(f) <= max then Some(DigitValue(f)) else None
  }

  /** `datetime.strptime(s, "%H:%M")` as minutes since midnight, None where it
      raises ValueError. The hour is `2[0-3]|[0-1]\d|\d` and the minute
      `[0-5]\d|\d`, so "9:05" and "09:5" are accepted, "24:00" and "09:60" are
      not, and nothing may follow the minutes. */
  function ParseClock(s: string): (r: Option<nat>)
    ensures r.Some? ==> r.value < 24 * 60
  {
    var split := if |s| >= 2 && s[1] == ':' then 1 else 2;
    if |s| < split + 2 || s[split] != ':' then None
    else
      match (Field(s[..split], 23), Field(s[split + 1..], 59))
      case (Some(h), Some(m)) => Some(60 * h + m)
      case _ => None
  }

  /** The strings `strftime("%H:%M")` produces: two zero-padded fields. */
  predicate IsCanonicalClock(s: string) {
    && |s| == 5 && s[2] == ':'
    && AllDigits(s[..2]) && AllDigits(s[3..])
    && DigitValue(s[..2]) <= 23 && DigitValue(s[3..]) <= 59
  }

  /** `strftime("%H:%M")` of a time given in minutes since midnight. */
  function FormatClock(minutes: nat): (s: string)
    requires minutes < 24 * 60
    ensures IsCanonicalClock(s)
  {
    var s := Pad2(minutes / 60) + ":" + Pad2(minutes % 60);
    assert s[..2] == Pad2(minutes / 60) && s[3..] == Pad2(minutes % 60);
    s
  }

  /** A canonical "HH:MM" is read back by `strptime` as hours * 60 + minutes. */
  lemma ParseCanonicalClock(s: string)
    requires IsCanonicalClock(s)
    ensures ParseClock(s) == Some(60 * DigitValue(s[..2]) + DigitValue(s[3..]))
  {
    assert s[1] != ':' by {
      assert IsDigit(s[..2][1]);
    }
  }

  /** Formatting a time and parsing it back gives the same minute of the day. */
  lemma ClockRoundTrip(minutes: nat)
    requires minutes < 24 * 60
    ensures ParseClock(FormatClock(minutes)) == Some(minutes)
  {
    var s := FormatClock(minutes);
    assert s[..2] == Pad2(minutes / 60) && s[3..] == Pad2(minutes % 60);
    ParseCanonicalClock(s);
  }

  /** The digits of a canonical "HH:MM" spell HH * 100 + MM. */
  lemma CanonicalClockDigits(s: string)
    requires IsCanonicalClock(s)
    ensures DigitValue(s) == 100 * DigitValue(s[..2]) + DigitValue(s[3..])
  {
    var hh, mm := s[..2], s[3..];
    assert s == hh + (":" + mm);
    assert DigitCount(":" + mm) == 2 && DigitValue(":" + mm) == DigitValue(mm) by {
      DigitValueConcat(":", mm);
      DigitCountConcat(":", mm);
      DigitCountAllDigits(mm);
      assert DigitValue(":") == 0 && DigitCount(":") == 0;
    }
    assert Pow10(DigitCount(":" + mm)) == 100 by {
      assert Pow10(2) == 100;
    }
    calc {
      DigitValue(s);
      DigitValue(hh + (":" + mm));
      { DigitValueConcat(hh, ":" + mm); }
      DigitValue(hh) * Pow10(DigitCount(":" + mm)) + DigitValue(":" + mm);
      DigitValue(hh) * 100 + DigitValue(mm);
    }
  }

  lemma CanonicalClockShape(a: string, b: string)
    requires IsCanonicalClock(a) && IsCanonicalClock(b)
    ensures SameShape(a, b)
  {
    forall i | 0 <= i < 5
      ensures IsDigit(a[i]) <==> IsDigit(b[i])
      ensures !IsDigit(a[i]) ==> a[i] == b[i]
    {
      if i < 2 {
        assert a[i] == a[..2][i] && b[i] == b[..2][i];
      } else if i > 2 {
        assert a[i] == a[3..][i - 3] && b[i] == b[3..][i - 3];
      }
    }
  }

  /** Hours and minutes compare the same way in base 100 as in base 60. */
  lemma HourMinuteOrder(h1: nat, m1: nat, h2: nat, m2: nat)
    requires m1 < 60 && m2 < 60
    ensures 100 * h1 + m1 <= 100 * h2 + m2 <==> 60 * h1 + m1 <= 60 * h2 + m2
  {
    if h1 < h2 {
      assert 100 * h1 + m1 < 100 * h2 && 60 * h1 + m1 < 60 * h2;
    } else if h1 > h2 {
      assert 100 * h2 + m2 < 100 * h1 && 60 * h2 + m2 < 60 * h1;
    }
  }

  /** `is_work_hours` compares "HH:MM" strings as text. For the zero-padded
      strings `strftime` writes, text order is exactly time-of-day order. */
  lemma CanonicalClockOrder(a: string, b: string)
    requires IsCanonicalClock(a) && IsCanonicalClock(b)
    ensures LexLe(a, b) <==> ParseClock(a).value <= ParseClock(b).value
  {
    CanonicalClockShape(a, b);
    LexLeIsNumericOrder(a, b);
    CanonicalClockDigits(a);
    CanonicalClockDigits(b);
    ParseCanonicalClock(a);
    ParseCanonicalClock(b);
    HourMinuteOrder(DigitValue(a[..2]), DigitValue(a[3..]), DigitValue(b[..2]), DigitValue(b[3..]));
  }

  /** `calculate_late_minutes`: whole minutes from the configured start of work
      to the arrival, 0 for an arrival at or before it; None where `strptime`
      raises. */
  function LateMinutes(workStart: string, start: string): (r: Option<nat>)
    ensures r.Some? <==> ParseClock(workStart).Some? && ParseClock(start).Some?
    ensures r.Some? ==> (r.value == 0 <==> ParseClock(start).value <= ParseClock(workStart).value)
    ensures r.Some? && r.value > 0 ==> ParseClock(workStart).value + r.value == ParseClock(start).value
  {
    match (ParseClock(workStart), ParseClock(start))
    case (Some(ws), Some(st)) => if st > ws then Some(st - ws) else Some(0)
    case _ => None
  }

  /** `calculate_early_leave`: whole minutes from the departure to the
      configured end of work, 0 for a departure at or after it; None where
      `strptime` raises. */
  function EarlyLeaveMinutes(workEnd: string, end: string): (r: Option<nat>)
    ensures r.Some? <==> ParseClock(workEnd).Some? && ParseClock(end).Some?
    ensures r.Some? ==> (r.value == 0 <==> ParseClock(workEnd).value <= ParseClock(end).value)
    ensures r.Some? && r.value > 0 ==> ParseClock(end).value + r.value == ParseClock(workEnd).value
  {
    match (ParseClock(workEnd), ParseClock(end))
    case (Some(we), Some(en)) => if en < we then Some(we - en) else Some(0)
    case _ => None
  }

  /** Arriving later never lowers the late minutes, and leaving earlier never
      lowers the early-leave minutes. */
  lemma LatenessMonotone(workStart: string, workEnd: string, t1: string, t2: string)
    requires ParseClock(workStart).Some? && ParseClock(workEnd).Some?
    requires ParseClock(t1).Some? && ParseClock(t2).Some?
    requires ParseClock(t1).value <= ParseClock(t2).value
    ensures LateMinutes(workStart, t1).value <= LateMinutes(workStart, t2).value
    ensures EarlyLeaveMinutes(workEnd, t2).value <= EarlyLeaveMinutes(workEnd, t1).value
  {
  }

  /** Two ASCII digits spell tens and units. */
  lemma TwoDigits(s: string)
    requires |s| == 2 && AllDigits(s)
    ensures DigitValue(s) == 10 * DigitOf(s[0]) + DigitOf(s[1])
  {
    assert s[1..] == [s[1]];
    assert s[1..][1..] == [];
    assert DigitCount(s[1..]) == 1 && DigitValue(s[1..]) == DigitOf(s[1]);
    assert Pow10(1) == 10;
  }

  /** The minute of the day a literal "HH:MM" stands for. */
  lemma ParseLiteral(s: string, h: nat, m: nat)
    requires |s| == 5 && s[2] == ':' && AllDigits(s[..2]) && AllDigits(s[3..])
    requires 10 * DigitOf(s[0]) + DigitOf(s[1]) == h <= 23
    requires 10 * DigitOf(s[3]) + DigitOf(s[4]) == m <= 59
    ensures ParseClock(s) == Some(60 * h + m)
  {
    TwoDigits(s[..2]);
    TwoDigits(s[3..]);
    ParseCanonicalClock(s);
  }

  /** With work hours 09:00-18:00, arriving at 09:15 is 15 minutes late and
      leaving at 17:45 is 15 minutes early. */
  lemma WorkdayScenario()
    ensures LateMinutes("09:00", "09:15") == Some(15)
    ensures EarlyLeaveMinutes("18:00", "17:45") == Some(15)
  {
    ParseLiteral("09:00", 9, 0);
    ParseLiteral("09:15", 9, 15);
    ParseLiteral("18:00", 18, 0);
    ParseLiteral("17:45", 17, 45);
  }
}

=== FILE: docs.dfy ===
/** JSON documents as the record store loads them, and the few pieces of
    Python semantics the store relies on: `dict.get`, `==` and truthiness. */
module Docs {

  datatype Option<+T> = None | Some(value: T)

  /** How a Python call ends: it returns a value, or an exception (KeyError,
      TypeError, AttributeError, ValueError, OverflowError, UnicodeDecodeError)
      propagates out of it. */
  datatype Outcome<+T> = Returned(value: T) | Raised

  /** A JSON value after `json.load`. Floats are modelled as reals. */
  datatype Value =
    | Null
    | Bool(b: bool)
    | Int(i: int)
    | Float(f: real)
    | Str(s: string)
    | Obj(fields: map<string, Value>)

  /** One stored document: a JSON object. */
  type Doc = map<string, Value>

  /** `item.get(key)`: a missing key reads as None. */
  function Get(d: Doc, key: string): Value {
    if key in d then d[key] else Null
  }

  /** `item.get(key, default)`. */
  function GetOr(d: Doc, key: string, default: Value): Value {
    if key in d then d[key] else default
  }

  /** The number a value stands for in Python arithmetic and comparison
      (bool is a subclass of int); None for non-numbers. */
  function Number(v: Value): Option<real> {
    match v
    case Bool(b) => Some(if b then 1.0 else 0.0)
    case Int(i) => Some(i as real)
    case Float(f) => Some(f)
    case _ => None
  }

  /** Python's `==` on loaded JSON values: numbers of different types compare
      by value (True == 1 == 1.0), everything else structurally. */
  predicate PyEq(a: Value, b: Value): (r: bool)
    ensures a == b ==> r
    ensures Number(a).None? || Number(b).None? ==> (r <==> a == b)
    ensures a.Bool? && b.Int? ==> (r <==> (if a.b then 1 else 0) == b.i)
  {
    if Number(a).Some? && Number(b).Some? then Number(a) == Number(b) else a == b
  }

  /** Python truthiness of a value. */
  predicate Truthy(v: Value) {
    match v
    case Null => false
    case Bool(b) => b
    case Int(i) => i != 0
    case Float(f) => f != 0.0
    case Str(s) => s != ""
    case Obj(m) => m != map[]
  }

  /** `all(item.get(k) == v for k, v in filters.items())`. */
  predicate Matches(d: Doc, filters: Doc): (r: bool)
    ensures filters == map[] ==> r
    ensures filters.Keys <= d.Keys && (forall k :: k in filters ==> d[k] == filters[k]) ==> r
  {
    forall k :: k in filters ==> PyEq(Get(d, k), filters[k])
  }

  /** `==` as used by the store is an equivalence relation, so "first
      document equal to a value" is well behaved. */
  lemma PyEqIsEquivalence(a: Value, b: Value, c: Value)
    ensures PyEq(a, a)
    ensures PyEq(a, b) <==> PyEq(b, a)
    ensures PyEq(a, b) && PyEq(b, c) ==> PyEq(a, c)
  {
  }

  /** A document matching a filter that asks for a non-None value holds that key,
      so it is a non-empty (truthy) dict. */
  lemma MatchHoldsKey(d: Doc, filters: Doc, k: string)
    requires Matches(d, filters) && k in filters && !PyEq(Null, filters[k])
    ensures k in d && d != map[]
  {
  }

  /** A shallow merge (`dict.update`) that does not touch the filter's keys does
      not change whether a document matches. */
  lemma MergeKeepsMatch(d: Doc, patch: Doc, filters: Doc)
    requires filters.Keys !! patch.Keys
    ensures Matches(d + patch, filters) <==> Matches(d, filters)
  {
    forall k | k in filters
      ensures Get(d + patch, k) == Get(d, k)
    {
      assert k !in patch;
    }
  }
}

=== FILE: records.dfy ===
/** What the store's scans compute over a collection, as functions of the
    stored sequence: the first match of `find_one`/`update`, the filter of
    `find_many`/`count`, and the first-match merge of `update`. */
module Records {
  import opened Docs

  /** Index of the first document, in stored order, whose `key` equals `value`. */
  function FirstIndex(docs: seq<Doc>, key: string, value: Value): (r: Option<nat>)
    ensures r.Some? ==> r.value < |docs| && PyEq(Get(docs[r.value], key), value)
    ensures r.Some? ==> forall j :: 0 <= j < r.value ==> !PyEq(Get(docs[j], key), value)
    ensures r.None? <==> forall j :: 0 <= j < |docs| ==> !PyEq(Get(docs[j], key), value)
  {
    if |docs| == 0 then None
    else if PyEq(Get(docs[0], key), value) then Some(0)
    else
      match FirstIndex(docs[1..], key, value)
      case None => None
      case Some(i) => Some(i + 1)
  }

  /** The first matching document itself (what `find_one` returns). */
  function FirstMatch(docs: seq<Doc>, key: string, value: Value): (r: Option<Doc>)
    ensures r.Some? ==> r.value in docs && PyEq(Get(r.value, key), value)
    ensures r.Some? ==>
      exists i :: 0 <= i < |docs| && docs[i] == r.value && (forall j :: 0 <= j < i ==> !PyEq(Get(docs[j], key), value))
    ensures r.None? <==> forall j :: 0 <= j < |docs| ==> !PyEq(Get(docs[j], key), value)
  {
    match FirstIndex(docs, key, value)
    case None => None
    case Some(i) => Some(docs[i])
  }

  /** `[item for item in docs if all(item.get(k) == v for k, v in filters.items())]`. */
  function Filter(docs: seq<Doc>, filters: Doc): (r: seq<Doc>)
    ensures |r| <= |docs|
  {
    if |docs| == 0 then []
    else (if Matches(docs[0], filters) then [docs[0]] else []) + Filter(docs[1..], filters)
  }

  /** Number of documents matching `filters`. */
  function CountMatching(docs: seq<Doc>, filters: Doc): nat {
    |Filter(docs, filters)|
  }

  /** The collection after merging `patch` into the first document whose `key`
      equals `value`: only that document changes, by a shallow merge, and
      nothing changes when no document matches. */
  function UpdateFirst(docs: seq<Doc>, key: string, value: Value, patch: Doc): (r: seq<Doc>)
    ensures |r| == |docs|
    ensures FirstIndex(docs, key, value).None? ==> r == docs
    ensures FirstIndex(docs, key, value).Some? ==>
      var i := FirstIndex(docs, key, value).value;
      && r[i] == docs[i] + patch
      && (forall j :: 0 <= j < |docs| && j != i ==> r[j] == docs[j])
  {
    match FirstIndex(docs, key, value)
    case None => docs
    case Some(i) => docs[i := docs[i] + patch]
  }

  /** Filtering distributes over concatenation: the filter keeps stored order. */
  lemma {:induction false} FilterConcat(a: seq<Doc>, b: seq<Doc>, filters: Doc)
    ensures Filter(a + b, filters) == Filter(a, filters) + Filter(b, filters)
  {
    if |a| == 0 {
      assert a + b == b;
    } else {
      assert (a + b)[0] == a[0];
      assert (a + b)[1..] == a[1..] + b;
      FilterConcat(a[1..], b, filters);
    }
  }

  /** Filtering a single document keeps it exactly when it matches. */
  lemma FilterSingleton(d: Doc, filters: Doc)
    ensures Filter([d], filters) == if Matches(d, filters) then [d] else []
  {
    assert [d][1..] == [];
  }

  /** Appending one document extends the filter by that document when it matches. */
  lemma FilterSnoc(docs: seq<Doc>, d: Doc, filters: Doc)
    ensures Filter(docs + [d], filters) == Filter(docs, filters) + (if Matches(d, filters) then [d] else [])
  {
    FilterConcat(docs, [d], filters);
    FilterSingleton(d, filters);
  }

  /** The filter keeps exactly the matching documents. */
  lemma {:induction false} FilterMembers(docs: seq<Doc>, filters: Doc, d: Doc)
    ensures d in Filter(docs, filters) <==> d in docs && Matches(d, filters)
  {
    if |docs| > 0 {
      FilterMembers(docs[1..], filters, d);
      assert docs == [docs[0]] + docs[1..];
    }
  }

  /** An empty filter map selects the whole collection. */
  lemma {:induction false} FilterEmpty(docs: seq<Doc>)
    ensures Filter(docs, map[]) == docs
  {
    if |docs| > 0 {
      FilterEmpty(docs[1..]);
      assert docs == [docs[0]] + docs[1..];
    }
  }

  /** Replacing one document by one that matches the same filters keeps the filter's size. */
  lemma {:induction false} FilterCountReplace(docs: seq<Doc>, i: nat, d: Doc, filters: Doc)
    requires i < |docs|
    requires Matches(d, filters) <==> Matches(docs[i], filters)
    ensures CountMatching(docs[i := d], filters) == CountMatching(docs, filters)
  {
    if i > 0 {
      assert docs[i := d][1..] == docs[1..][i - 1 := d];
      FilterCountReplace(docs[1..], i - 1, d, filters);
    } else {
      assert docs[i := d][1..] == docs[1..];
    }
  }

  /** A merge whose patch avoids the filter's keys never changes how many documents
      match that filter: `update` can neither create nor remove a match. */
  lemma UpdateFirstKeepsCount(docs: seq<Doc>, key: string, value: Value, patch: Doc, filters: Doc)
    requires filters.Keys !! patch.Keys
    ensures CountMatching(UpdateFirst(docs, key, value, patch), filters) == CountMatching(docs, filters)
  {
    match FirstIndex(docs, key, value)
    case None =>
    case Some(i) =>
      MergeKeepsMatch(docs[i], patch, filters);
      FilterCountReplace(docs, i, docs[i] + patch, filters);
  }

  /** An append raises the number of matches by one when the appended
      document matches, and leaves it as it was otherwise. */
  lemma AppendCount(docs: seq<Doc>, d: Doc, filters: Doc)
    ensures CountMatching(docs + [d], filters) == CountMatching(docs, filters) + (if Matches(d, filters) then 1 else 0)
  {
    FilterSnoc(docs, d, filters);
  }

  /** Index of the first document matching every pair of `filters`. */
  function FirstWhere(docs: seq<Doc>, filters: Doc): (r: Option<nat>)
    ensures r.Some? ==> r.value < |docs| && Matches(docs[r.value], filters)
    ensures r.Some? ==> forall j :: 0 <= j < r.value ==> !Matches(docs[j], filters)
    ensures r.None? <==> forall j :: 0 <= j < |docs| ==> !Matches(docs[j], filters)
  {
    if |docs| == 0 then None
    else if Matches(docs[0], filters) then Some(0)
    else
      match FirstWhere(docs[1..], filters)
      case None => None
      case Some(i) => Some(i + 1)
  }

  /** The head of `find_many`'s result (what `results[0] if results else None`
      picks) is the first matching document in stored order. */
  lemma {:induction false} FilterHead(docs: seq<Doc>, filters: Doc)
    ensures FirstWhere(docs, filters).None? <==> Filter(docs, filters) == []
    ensures FirstWhere(docs, filters).Some? ==> Filter(docs, filters)[0] == docs[FirstWhere(docs, filters).value]
  {
    if |docs| > 0 && !Matches(docs[0], filters) {
      FilterHead(docs[1..], filters);
    }
  }

  /** Documents before the first match of `filters` keep the filter empty, so
      the first match decides the head of the filter. */
  lemma FirstWhereAfterReplace(docs: seq<Doc>, i: nat, d: Doc, filters: Doc)
    requires FirstWhere(docs, filters) == Some(i)
    requires Matches(d, filters)
    ensures FirstWhere(docs[i := d], filters) == Some(i)
  {
    var x := docs[i := d];
    assert Matches(x[i], filters);
    assert forall j :: 0 <= j < i ==> x[j] == docs[j];
  }
}

=== FILE: services.dfy ===
/** The backend services (`services.py`) as methods over the backend record
    store. Each reads the settings through `get_settings` where the source
    does, and its result and writes are those of the matching rule in
    `Attendance` or `Statistics`. Writes are modelled as succeeding. */
module Services {
  import opened Docs
  import opened Records
  import opened Storage
  import opened Calendar
  import opened BackendDb
  import opened Attendance
  import opened Statistics

  /** The settings a call sees: what `get_settings` returns for the stored record. */
  function SettingsOf(records: map<string, Persisted<Doc>>): Doc {
    EffectiveSettings(StateOf(records, SETTINGS_FILE))
  }

  /** `is_work_hours`. */
  method IsWorkHours(db: JsonDB, now: Now) returns (r: Outcome<bool>)
    modifies db
    ensures r == WorkHours(SettingsOf(old(db.records)), now.clock)
    ensures db.files == old(db.files)
    ensures db.records == AfterGetSettings(old(db.records), NoFault)
  {
    var settings := GetSettings(db, NoFault);
    r := WorkHours(settings, now.clock);
  }

  /** `calculate_late_minutes`. */
  method CalculateLateMinutes(db: JsonDB, startTime: string) returns (r: Outcome<nat>)
    modifies db
    ensures r == LateFor(SettingsOf(old(db.records)), startTime)
    ensures db.files == old(db.files)
    ensures db.records == AfterGetSettings(old(db.records), NoFault)
  {
    var settings := GetSettings(db, NoFault);
    r := LateFor(settings, startTime);
  }

  /** `calculate_early_leave`. */
  method CalculateEarlyLeave(db: JsonDB, endTime: string) returns (r: Outcome<nat>)
    modifies db
    ensures r == EarlyFor(SettingsOf(old(db.records)), endTime)
    ensures db.files == old(db.files)
    ensures db.records == AfterGetSettings(old(db.records), NoFault)
  {
    var settings := GetSettings(db, NoFault);
    r := EarlyFor(settings, endTime);
  }

  /** `is_inside_geofence`, with the distance function as a parameter. */
  method IsInsideGeofence(db: JsonDB, lat: real, lng: real, distance: Distance) returns (r: Outcome<bool>)
    modifies db
    ensures r == InsideGeofence(SettingsOf(old(db.records)), lat, lng, distance)
    ensures db.files == old(db.files)
    ensures db.records == AfterGetSettings(old(db.records), NoFault)
  {
    var settings := GetSettings(db, NoFault);
    r := InsideGeofence(settings, lat, lng, distance);
  }

  /** `get_today_session`: the head of the `find_many` result. */
  method GetTodaySession(db: JsonDB, user: int, now: Now) returns (r: Option<Doc>)
    ensures r == TodaySession(db.Collection(SESSIONS_FILE), user, now.date)
  {
    var sessions := db.FindMany(SESSIONS_FILE, TodayFilter(user, now.date));
    r := if |sessions| > 0 then Some(sessions[0]) else None;
  }

  /** `start_session`. */
  method StartSession(db: JsonDB, user: int, now: Now, newId: string) returns (r: Outcome<Option<Doc>>)
    modifies db
    ensures var step := StartSessionStep(SettingsOf(old(db.records)), old(db.Collection(SESSIONS_FILE)), user, now, newId);
      r == step.result && db.files == ApplyTo(old(db.files), SESSIONS_FILE, step.effect)
    ensures db.records == AfterGetSettings(old(db.records), NoFault)
  {
    ghost var before := db.records;
    ghost var step := StartSessionStep(SettingsOf(db.records), db.Collection(SESSIONS_FILE), user, now, newId);
    var open := IsWorkHours(db, now);
    if open.Raised? {
      assert step == Step(Raised, Unchanged);
      return Raised;
    }
    if !open.value {
      assert step == Step(Returned(None), Unchanged);
      return Returned(None);
    }
    var existing := GetTodaySession(db, user, now);
    TodaySessionIsFirst(db.Collection(SESSIONS_FILE), user, now.date);
    if existing.Some? && existing.value != map[] {
      assert step == ReopenStep(existing.value);
      r := Reopen(db, existing.value);
      return;
    }
    assert step == CreateStep(SettingsOf(before), user, now, newId);
    var late := CalculateLateMinutes(db, now.clock);
    GetSettingsIdempotent(before);
    if late.Raised? {
      return Raised;
    }
    var session := NewSession(newId, user, now, late.value);
    var _ := db.Append(SESSIONS_FILE, session, NoFault);
    return Returned(Some(session));
  }

  /** The reuse branch of `start_session`: set the status of today's session
      back to "online" unless it already is. */
  method Reopen(db: JsonDB, existing: Doc) returns (r: Outcome<Option<Doc>>)
    modifies db
    ensures r == ReopenStep(existing).result
    ensures db.files == ApplyTo(old(db.files), SESSIONS_FILE, ReopenStep(existing).effect)
    ensures db.records == old(db.records)
  {
    if "status" !in existing {
      return Raised;
    }
    if PyEq(existing["status"], Str("online")) {
      return Returned(Some(existing));
    }
    if "id" !in existing {
      return Raised;
    }
    var _ := db.Update(SESSIONS_FILE, "id", existing["id"], map["status" := Str("online")], NoFault);
    return Returned(Some(existing["status" := Str("online")]));
  }

  /** `end_session`: reads the settings only when there is a session to end. */
  method EndSession(db: JsonDB, user: int, now: Now) returns (r: Outcome<Option<Doc>>)
    modifies db
    ensures var step := EndSessionStep(SettingsOf(old(db.records)), old(db.Collection(SESSIONS_FILE)), user, now);
      r == step.result && db.files == ApplyTo(old(db.files), SESSIONS_FILE, step.effect)
    ensures db.records == if TodaySession(old(db.Collection(SESSIONS_FILE)), user, now.date).Some?
      then AfterGetSettings(old(db.records), NoFault) else old(db.records)
  {
    ghost var step := EndSessionStep(SettingsOf(db.records), db.Collection(SESSIONS_FILE), user, now);
    var found := GetTodaySession(db, user, now);
    TodaySessionIsFirst(db.Collection(SESSIONS_FILE), user, now.date);
    if found.None? || found.value == map[] {
      assert step == Step(Returned(None), Unchanged);
      return Returned(None);
    }
    assert step == CloseStep(SettingsOf(db.records), found.value, now.clock);
    r := Close(db, found.value, now.clock);
  }

  /** The closing branch of `end_session`: compute the early-leave minutes
      and merge the closing fields into the session in the store. */
  method Close(db: JsonDB, session: Doc, clock: string) returns (r: Outcome<Option<Doc>>)
    modifies db
    ensures r == CloseStep(SettingsOf(old(db.records)), session, clock).result
    ensures db.files == ApplyTo(old(db.files), SESSIONS_FILE, CloseStep(SettingsOf(old(db.records)), session, clock).effect)
    ensures db.records == AfterGetSettings(old(db.records), NoFault)
  {
    var early := CalculateEarlyLeave(db, clock);
    if early.Raised? {
      return Raised;
    }
    var updates := EndUpdates(clock, early.value);
    if "id" !in session {
      return Raised;
    }
    var _ := db.Update(SESSIONS_FILE, "id", session["id"], updates, NoFault);
    return Returned(Some(session + updates));
  }

  /** `get_sessions_by_range`. */
  method GetSessionsByRange(db: JsonDB, user: int, startDate: string, endDate: string) returns (r: Outcome<seq<Doc>>)
    ensures r == SessionsInRange(db.Collection(SESSIONS_FILE), user, startDate, endDate)
  {
    var mine := db.FindMany(SESSIONS_FILE, UserFilter(user));
    r := if AllDated(mine) then Returned(RangeFilter(mine, startDate, endDate)) else Raised;
  }

  /** `record_location`: stores the sample, then recounts the session's
      online and office minutes from all of its samples. */
  method RecordLocation(db: JsonDB, user: int, sessionId: string, lat: real, lng: real,
                        now: Now, newId: string, distance: Distance) returns (r: Outcome<Option<Doc>>)
    modifies db
    ensures var step := RecordLocationStep(SettingsOf(old(db.records)), old(db.Collection(LOCATIONS_FILE)),
                                           user, sessionId, lat, lng, now, newId, distance);
      && r == step.result
      && db.files == ApplyTo(ApplyTo(old(db.files), LOCATIONS_FILE, step.locations), SESSIONS_FILE, step.sessions)
    ensures db.records == AfterGetSettings(old(db.records), NoFault)
  {
    ghost var before := db.records;
    var open := IsWorkHours(db, now);
    if open.Raised? {
      return Raised;
    }
    if !open.value {
      return Returned(None);
    }
    var inside := IsInsideGeofence(db, lat, lng, distance);
    GetSettingsIdempotent(before);
    if inside.Raised? {
      return Raised;
    }
    r := StoreLocation(db, NewLocation(newId, user, sessionId, lat, lng, inside.value, now), sessionId);
  }

  /** The second half of `record_location`: append the sample, read back the
      session's samples and write their counts into the session. */
  method StoreLocation(db: JsonDB, location: Doc, sessionId: string) returns (r: Outcome<Option<Doc>>)
    modifies db
    ensures var step := StoreSample(old(db.Collection(LOCATIONS_FILE)), location, sessionId);
      && r == step.result
      && db.files == ApplyTo(ApplyTo(old(db.files), LOCATIONS_FILE, step.locations), SESSIONS_FILE, step.sessions)
    ensures db.records == old(db.records)
  {
    ghost var step := StoreSample(db.Collection(LOCATIONS_FILE), location, sessionId);
    var _ := db.Append(LOCATIONS_FILE, location, NoFault);
    ghost var appended := db.files;
    assert appended == ApplyTo(old(db.files), LOCATIONS_FILE, step.locations);
    var samples := db.FindMany(LOCATIONS_FILE, SessionFilter(sessionId));
    var office := OfficeCount(samples);
    if office.None? {
      assert step.sessions == Unchanged;
      return Raised;
    }
    var patch := map["total_online_minutes" := Int(|samples|), "total_office_minutes" := Int(office.value)];
    var _ := db.Update(SESSIONS_FILE, "id", Str(sessionId), patch, NoFault);
    return Returned(Some(location));
  }

  /** `submit_report`: a missing or empty date means today. */
  method SubmitReport(db: JsonDB, user: int, content: string, date: Option<string>, now: Now, newId: string)
    returns (r: Outcome<Doc>)
    modifies db
    ensures var step := SubmitReportStep(old(db.Collection(REPORTS_FILE)), user, content, date, now, newId);
      r == step.result && db.files == ApplyTo(old(db.files), REPORTS_FILE, step.effect)
    ensures db.records == old(db.records)
  {
    ghost var step := SubmitReportStep(db.Collection(REPORTS_FILE), user, content, date, now, newId);
    var day := if date.None? || date.value == "" then now.date else date.value;
    var existing := db.FindMany(REPORTS_FILE, ReportFilter(user, day));
    if |existing| > 0 {
      assert step == ReviseStep(existing[0], content, now.stamp);
      r := Revise(db, existing[0], content, now.stamp);
      return;
    }
    var report := NewReport(newId, user, day, content, now.stamp);
    assert step == Step(Returned(report), Appended(report));
    var _ := db.Append(REPORTS_FILE, report, NoFault);
    return Returned(report);
  }

  /** The update branch of `submit_report`: store the new content and
      submission time in the day's existing report. */
  method Revise(db: JsonDB, existing: Doc, content: string, stamp: string) returns (r: Outcome<Doc>)
    modifies db
    ensures r == ReviseStep(existing, content, stamp).result
    ensures db.files == ApplyTo(old(db.files), REPORTS_FILE, ReviseStep(existing, content, stamp).effect)
    ensures db.records == old(db.records)
  {
    if "id" !in existing {
      return Raised;
    }
    var patch := map["content" := Str(content), "submitted_at" := Str(stamp)];
    var _ := db.Update(REPORTS_FILE, "id", existing["id"], patch, NoFault);
    return Returned(existing["content" := Str(content)]);
  }

  /** `get_user_report`. */
  method GetUserReport(db: JsonDB, user: int, date: string) returns (r: Option<Doc>)
    ensures r == UserReport(db.Collection(REPORTS_FILE), user, date)
  {
    var reports := db.FindMany(REPORTS_FILE, ReportFilter(user, date));
    r := if |reports| > 0 then Some(reports[0]) else None;
  }

  /** `get_user_statistics`. */
  method GetUserStatistics(db: JsonDB, user: int, startDate: string, endDate: string) returns (r: Outcome<Stats>)
    ensures r == UserStatistics(db.Collection(SESSIONS_FILE), user, startDate, endDate)
  {
    var inRange := GetSessionsByRange(db, user, startDate, endDate);
    if inRange.Raised? {
      return Raised;
    }
    var sessions := inRange.value;
    var online := Total(sessions, "total_online_minutes");
    var office := Total(sessions, "total_office_minutes");
    var late := Total(sessions, "late_arrival_minutes");
    var early := Total(sessions, "early_leave_minutes");
    if online.None? || office.None? || late.None? || early.None? {
      return Raised;
    }
    var days := |sessions|;
    var average := if days > 0 then online.value / (days as real) else 0.0;
    var rate := if online.value > 0.0 then office.value / online.value * 100.0 else 0.0;
    return Returned(Stats(user, startDate, endDate, days, online.value, office.value, late.value, early.value, average, rate));
  }

  /** The three values for one day: the day's session counters, or zeros
      when there is no session (or an empty one) that day. */
  method DayValues(byDate: map<string, Doc>, day: string) returns (online: Value, office: Value, late: Value)
    ensures online == Cell(byDate, day, "total_online_minutes")
    ensures office == Cell(byDate, day, "total_office_minutes")
    ensures late == Cell(byDate, day, "late_arrival_minutes")
  {
    var session := if day in byDate then Some(byDate[day]) else None;
    if session.Some? && session.value != map[] {
      online := GetOr(session.value, "total_online_minutes", Int(0));
      office := GetOr(session.value, "total_office_minutes", Int(0));
      late := GetOr(session.value, "late_arrival_minutes", Int(0));
    } else {
      online, office, late := Int(0), Int(0), Int(0);
    }
  }

  /** The day-by-day loop of `get_chart_data` from `s` to `e`: a label and
      three values per day, raising when it has to step past 9999-12-31. */
  method WalkDays(byDate: map<string, Doc>, s: Date, e: Date) returns (r: Outcome<Chart>)
    requires Valid(s) && Valid(e)
    ensures r == if DateLe(s, e) && e == LastDate then Raised else Returned(ChartOver(byDate, Labels(DayRange(s, e))))
  {
    var labels: seq<string> := [];
    var online: seq<Value> := [];
    var office: seq<Value> := [];
    var late: seq<Value> := [];
    var current := s;
    ghost var done: seq<Date> := [];
    DayRangeStep(s, e);
    while DateLe(current, e)
      invariant Valid(current)
      invariant forall k :: 0 <= k < |done| ==> Valid(done[k])
      invariant DayRange(s, e) == done + DayRange(current, e)
      invariant Chart(labels, online, office, late) == ChartOver(byDate, Labels(done))
      decreases |DayRange(current, e)|
    {
      var day := Format(current);
      labels := labels + [day];
      var on, off, lt := DayValues(byDate, day);
      online, office, late := online + [on], office + [off], late + [lt];
      ChartStep(byDate, done, current);
      var next := NextDay(current);
      if next.None? {
        WalkOverflow(s, e, current, done);
        return Raised;
      }
      DayRangeAdvance(done, current, e);
      done := done + [current];
      current := next.value;
    }
    WalkExit(s, e, current, done);
    return Returned(Chart(labels, online, office, late));
  }

  /** `get_chart_data`. */
  method GetChartData(db: JsonDB, user: int, startDate: string, endDate: string) returns (r: Outcome<Chart>)
    ensures r == ChartData(db.Collection(SESSIONS_FILE), user, startDate, endDate)
  {
    var inRange := GetSessionsByRange(db, user, startDate, endDate);
    if inRange.Raised? {
      return Raised;
    }
    var byDate := ByDate(inRange.value);
    var start := ParseDate(startDate);
    if start.None? {
      return Raised;
    }
    var end := ParseDate(endDate);
    if end.None? {
      return Raised;
    }
    r := WalkDays(byDate, start.value, end.value);
  }
}

=== FILE: statistics.dfy ===
/** Date ranges, statistics and chart data over a user's sessions. Dates are
    compared as "YYYY-MM-DD" strings, as the services do; for the zero-padded
    strings `strftime` writes this is calendar order. */
module Statistics {
  import opened Docs
  import opened Records
  import opened Text
  import opened Calendar
  import opened Attendance

  /** The filter of `get_sessions_by_range`. */
  function UserFilter(user: int): Doc {
    map["user_id" := Int(user)]
  }

  /** A session whose "date" can be compared with a string. */
  predicate Dated(s: Doc) {
    "date" in s && s["date"].Str?
  }

  function DateOf(s: Doc): string {
    if Dated(s) then s["date"].s else ""
  }

  predicate AllDated(sessions: seq<Doc>) {
    forall i :: 0 <= i < |sessions| ==> Dated(sessions[i])
  }

  /** `start_date <= s["date"] <= end_date`. */
  predicate InRange(s: Doc, startDate: string, endDate: string) {
    LexLe(startDate, DateOf(s)) && LexLe(DateOf(s), endDate)
  }

  /** The sessions dated within the range, in stored order. */
  function RangeFilter(sessions: seq<Doc>, startDate: string, endDate: string): (r: seq<Doc>)
    ensures |r| <= |sessions|
  {
    if |sessions| == 0 then []
    else (if InRange(sessions[0], startDate, endDate) then [sessions[0]] else []) + RangeFilter(sessions[1..], startDate, endDate)
  }

  /** `get_sessions_by_range`: the user's sessions dated within the range; a
      session of the user without a string date makes it raise. */
  function SessionsInRange(sessions: seq<Doc>, user: int, startDate: string, endDate: string): (r: Outcome<seq<Doc>>)
    ensures r.Returned? ==> |r.value| <= CountMatching(sessions, UserFilter(user)) <= |sessions|
    ensures CountMatching(sessions, UserFilter(user)) == 0 ==> r == Returned([])
  {
    var mine := Filter(sessions, UserFilter(user));
    if AllDated(mine) then Returned(RangeFilter(mine, startDate, endDate)) else Raised
  }

  /** The range filter keeps exactly the sessions dated within the range. */
  lemma {:induction false} RangeFilterMembers(sessions: seq<Doc>, startDate: string, endDate: string, s: Doc)
    ensures s in RangeFilter(sessions, startDate, endDate) <==> s in sessions && InRange(s, startDate, endDate)
  {
    if |sessions| > 0 {
      RangeFilterMembers(sessions[1..], startDate, endDate, s);
      assert sessions == [sessions[0]] + sessions[1..];
    }
  }

  /** `get_sessions_by_range` returns exactly the user's sessions within the
      range, and raises exactly when one of the user's sessions has no
      string date. */
  lemma SessionsInRangeMembers(sessions: seq<Doc>, user: int, startDate: string, endDate: string)
    ensures SessionsInRange(sessions, user, startDate, endDate).Raised? <==>
      exists s :: s in sessions && Matches(s, UserFilter(user)) && !Dated(s)
    ensures SessionsInRange(sessions, user, startDate, endDate).Returned? ==>
      forall s :: s in SessionsInRange(sessions, user, startDate, endDate).value <==>
        s in sessions && Matches(s, UserFilter(user)) && InRange(s, startDate, endDate)
  {
    var mine := Filter(sessions, UserFilter(user));
    forall s ensures s in mine <==> s in sessions && Matches(s, UserFilter(user)) {
      FilterMembers(sessions, UserFilter(user), s);
    }
    forall s ensures s in RangeFilter(mine, startDate, endDate) <==> s in mine && InRange(s, startDate, endDate) {
      RangeFilterMembers(mine, startDate, endDate, s);
    }
  }

  /** Python's `+` on two partial sums; None once a summand was not a number. */
  function AddOpt(a: Option<real>, b: Option<real>): Option<real> {
    if a.Some? && b.Some? then Some(a.value + b.value) else None
  }

  /** `sum(s.get(key, 0) for s in sessions)`; None where an entry is not a
      number (TypeError). */
  function Total(sessions: seq<Doc>, key: string): (r: Option<real>)
    ensures r.Some? <==> forall i :: 0 <= i < |sessions| ==> Number(GetOr(sessions[i], key, Int(0))).Some?
    ensures sessions == [] ==> r == Some(0.0)
  {
    if |sessions| == 0 then Some(0.0)
    else AddOpt(Number(GetOr(sessions[0], key, Int(0))), Total(sessions[1..], key))
  }

  lemma TotalCons(s: Doc, rest: seq<Doc>, key: string)
    ensures Total([s] + rest, key) == AddOpt(Number(GetOr(s, key, Int(0))), Total(rest, key))
  {
    assert ([s] + rest)[1..] == rest;
  }

  /** The dictionary `get_user_statistics` returns. */
  datatype Stats = Stats(
    userId: int, startDate: string, endDate: string,
    totalDays: nat,
    totalOnline: real, totalOffice: real, totalLate: real, totalEarly: real,
    averageOnline: real, attendanceRate: real)

  /** `get_user_statistics`: sums of the per-session counters over the range,
      the average online minutes per session (0 without sessions) and the
      office share of online time in percent (0 without online time). */
  function UserStatistics(sessions: seq<Doc>, user: int, startDate: string, endDate: string): (r: Outcome<Stats>)
    ensures SessionsInRange(sessions, user, startDate, endDate).Raised? ==> r.Raised?
    ensures r.Returned? <==>
      && SessionsInRange(sessions, user, startDate, endDate).Returned?
      && forall i :: 0 <= i < |SessionsInRange(sessions, user, startDate, endDate).value| ==>
           Summable(SessionsInRange(sessions, user, startDate, endDate).value[i])
    ensures r.Returned? ==>
      && r.value.userId == user && r.value.startDate == startDate && r.value.endDate == endDate
      && r.value.totalDays <= CountMatching(sessions, UserFilter(user))
  {
    match SessionsInRange(sessions, user, startDate, endDate)
    case Raised => Raised
    case Returned(inRange) => StatsOver(inRange, user, startDate, endDate)
  }

  /** Every counter `get_user_statistics` sums is a number (or absent) in `s`. */
  predicate Summable(s: Doc) {
    && Number(GetOr(s, "total_online_minutes", Int(0))).Some?
    && Number(GetOr(s, "total_office_minutes", Int(0))).Some?
    && Number(GetOr(s, "late_arrival_minutes", Int(0))).Some?
    && Number(GetOr(s, "early_leave_minutes", Int(0))).Some?
  }

  /** The statistics dictionary built from the sessions of the range: one day
      per session, the average online minutes per day (0 without sessions) and
      the office share of online time in percent (0 without online time). */
  function StatsOver(inRange: seq<Doc>, user: int, startDate: string, endDate: string): (r: Outcome<Stats>)
    ensures (forall i :: 0 <= i < |inRange| ==> Summable(inRange[i])) <==> r.Returned?
    ensures r.Returned? ==>
      var st := r.value;
      && st.totalDays == |inRange|
      && (st.totalDays == 0 ==> st.averageOnline == 0.0 && st.totalOnline == 0.0)
      && st.averageOnline * (st.totalDays as real) == st.totalOnline
      && (st.totalOnline <= 0.0 ==> st.attendanceRate == 0.0)
      && (st.totalOnline > 0.0 ==> st.attendanceRate * st.totalOnline == st.totalOffice * 100.0)
  {
    var online := Total(inRange, "total_online_minutes");
    var office := Total(inRange, "total_office_minutes");
    var late := Total(inRange, "late_arrival_minutes");
    var early := Total(inRange, "early_leave_minutes");
    if online.None? || office.None? || late.None? || early.None? then Raised
    else
      var average := if |inRange| > 0 then online.value / (|inRange| as real) else 0.0;
      var rate := if online.value > 0.0 then office.value / online.value * 100.0 else 0.0;
      assert average * (|inRange| as real) == online.value by {
        if |inRange| > 0 {
          AverageTimesCount(online.value, |inRange|);
        }
      }
      assert online.value > 0.0 ==> rate * online.value == office.value * 100.0 by {
        if online.value > 0.0 {
          RateTimesOnline(office.value, online.value);
        }
      }
      Returned(Stats(user, startDate, endDate, |inRange|,
        online.value, office.value, late.value, early.value, average, rate))
  }

  /** A date string exactly as `strftime("%Y-%m-%d")` writes it. */
  predicate CanonicalDate(s: string) {
    ParseDate(s).Some? && Format(ParseDate(s).value) == s
  }

  predicate AllCanonical(sessions: seq<Doc>) {
    forall i :: 0 <= i < |sessions| ==> Dated(sessions[i]) && CanonicalDate(DateOf(sessions[i]))
  }

  /** Splitting a range after day `m`: a canonical date lies in [a, c] exactly
      when it lies in [a, m] or in [m + 1 day, c], and never in both. */
  lemma DateSplit(x: string, a: string, c: string, m: Date)
    requires CanonicalDate(x) && Valid(m) && m != LastDate
    requires LexLe(a, Format(m)) && LexLe(Format(m), c)
    ensures var next := Format(NextDay(m).value);
      && (LexLe(a, x) && LexLe(x, c) <==> (LexLe(a, x) && LexLe(x, Format(m))) || (LexLe(next, x) && LexLe(x, c)))
      && !(LexLe(x, Format(m)) && LexLe(next, x))
  {
    var d := ParseDate(x).value;
    var n := NextDay(m).value;
    FormatOrder(d, m);
    FormatOrder(n, d);
    FormatOrder(m, n);
    DateLeIsOrdinalOrder(d, m);
    DateLeIsOrdinalOrder(n, d);
    DateLeIsOrdinalOrder(m, n);
    if LexLe(x, Format(m)) {
      LexLeTransitive(x, Format(m), c);
    }
    if LexLe(Format(n), x) {
      LexLeTransitive(Format(m), Format(n), x);
      LexLeTransitive(a, Format(m), x);
    }
  }

  /** A counter's total over `w` is its total over `l` plus that over `r`. */
  predicate TotalSplits(w: seq<Doc>, l: seq<Doc>, r: seq<Doc>, key: string) {
    && (Total(w, key).Some? <==> Total(l, key).Some? && Total(r, key).Some?)
    && (Total(w, key).Some? ==> Total(w, key).value == Total(l, key).value + Total(r, key).value)
  }

  /** One session's share in a split: it counts in the whole range exactly
      when it counts in one of the two halves. */
  lemma SplitStep(s: Doc, w: seq<Doc>, l: seq<Doc>, r: seq<Doc>, key: string, inL: bool, inR: bool)
    requires !(inL && inR)
    requires |w| == |l| + |r| && TotalSplits(w, l, r, key)
    ensures var w', l', r' := (if inL || inR then [s] else []) + w, (if inL then [s] else []) + l, (if inR then [s] else []) + r;
      |w'| == |l'| + |r'| && TotalSplits(w', l', r', key)
  {
    if inL {
      assert [] + r == r;
      TotalCons(s, w, key);
      TotalCons(s, l, key);
    } else if inR {
      assert [] + l == l;
      TotalCons(s, w, key);
      TotalCons(s, r, key);
    } else {
      assert [] + w == w && [] + l == l && [] + r == r;
    }
  }

  /** Range filtering over [a, c] splits into [a, m] and [m + 1 day, c]:
      session counts and counter totals add up. */
  lemma {:induction false} RangeSplit(sessions: seq<Doc>, key: string, a: string, c: string, m: Date)
    requires AllCanonical(sessions) && Valid(m) && m != LastDate
    requires LexLe(a, Format(m)) && LexLe(Format(m), c)
    ensures var next := Format(NextDay(m).value);
      var whole, left, right := RangeFilter(sessions, a, c), RangeFilter(sessions, a, Format(m)), RangeFilter(sessions, next, c);
      |whole| == |left| + |right| && TotalSplits(whole, left, right, key)
  {
    if |sessions| > 0 {
      AllCanonicalTail(sessions);
      RangeSplit(sessions[1..], key, a, c, m);
      RangeSplitHead(sessions, key, a, c, m);
    }
  }

  lemma AllCanonicalTail(sessions: seq<Doc>)
    requires AllCanonical(sessions) && |sessions| > 0
    ensures Dated(sessions[0]) && CanonicalDate(DateOf(sessions[0]))
    ensures AllCanonical(sessions[1..])
  {
    var rest := sessions[1..];
    forall i | 0 <= i < |rest| ensures Dated(rest[i]) && CanonicalDate(DateOf(rest[i])) {
      assert rest[i] == sessions[i + 1];
    }
  }

  /** The first session joins the whole range exactly when it joins one half. */
  lemma RangeSplitHead(sessions: seq<Doc>, key: string, a: string, c: string, m: Date)
    requires |sessions| > 0 && Dated(sessions[0]) && CanonicalDate(DateOf(sessions[0]))
    requires Valid(m) && m != LastDate
    requires LexLe(a, Format(m)) && LexLe(Format(m), c)
    requires var next := Format(NextDay(m).value);
      var whole, left, right := RangeFilter(sessions[1..], a, c), RangeFilter(sessions[1..], a, Format(m)), RangeFilter(sessions[1..], next, c);
      |whole| == |left| + |right| && TotalSplits(whole, left, right, key)
    ensures var next := Format(NextDay(m).value);
      var whole, left, right := RangeFilter(sessions, a, c), RangeFilter(sessions, a, Format(m)), RangeFilter(sessions, next, c);
      |whole| == |left| + |right| && TotalSplits(whole, left, right, key)
  {
    var next := Format(NextDay(m).value);
    var s, rest := sessions[0], sessions[1..];
    DateSplit(DateOf(s), a, c, m);
    var inL, inR := InRange(s, a, Format(m)), InRange(s, next, c);
    assert InRange(s, a, c) == (inL || inR);
    SplitStep(s, RangeFilter(rest, a, c), RangeFilter(rest, a, Format(m)), RangeFilter(rest, next, c), key, inL, inR);
  }

  /** Statistics over [a, c] are those over [a, m] plus those over
      [m + 1 day, c]: days and every total add up, for sessions dated as
      `start_session` writes them. */
  lemma StatisticsSplit(sessions: seq<Doc>, user: int, a: string, c: string, m: Date)
    requires AllCanonical(Filter(sessions, UserFilter(user)))
    requires Valid(m) && m != LastDate
    requires LexLe(a, Format(m)) && LexLe(Format(m), c)
    ensures var next := Format(NextDay(m).value);
      var whole, left, right := UserStatistics(sessions, user, a, c), UserStatistics(sessions, user, a, Format(m)), UserStatistics(sessions, user, next, c);
      && (whole.Returned? <==> left.Returned? && right.Returned?)
      && (whole.Returned? ==>
            && whole.value.totalDays == left.value.totalDays + right.value.totalDays
            && whole.value.totalOnline == left.value.totalOnline + right.value.totalOnline
            && whole.value.totalOffice == left.value.totalOffice + right.value.totalOffice
            && whole.value.totalLate == left.value.totalLate + right.value.totalLate
            && whole.value.totalEarly == left.value.totalEarly + right.value.totalEarly)
  {
    var mine := Filter(sessions, UserFilter(user));
    var next := Format(NextDay(m).value);
    var w, l, r := RangeFilter(mine, a, c), RangeFilter(mine, a, Format(m)), RangeFilter(mine, next, c);
    assert SessionsInRange(sessions, user, a, c) == Returned(w);
    assert SessionsInRange(sessions, user, a, Format(m)) == Returned(l);
    assert SessionsInRange(sessions, user, next, c) == Returned(r);
    RangeSplit(mine, "total_online_minutes", a, c, m);
    RangeSplit(mine, "total_office_minutes", a, c, m);
    RangeSplit(mine, "late_arrival_minutes", a, c, m);
    RangeSplit(mine, "early_leave_minutes", a, c, m);
    StatsOverSplit(w, l, r, user, a, c, Format(m), next);
  }

  /** When the sessions of one range are those of two others, the day count
      and every total of its statistics add up. */
  lemma StatsOverSplit(w: seq<Doc>, l: seq<Doc>, r: seq<Doc>, user: int, a: string, c: string, m: string, next: string)
    requires |w| == |l| + |r|
    requires TotalSplits(w, l, r, "total_online_minutes") && TotalSplits(w, l, r, "total_office_minutes")
    requires TotalSplits(w, l, r, "late_arrival_minutes") && TotalSplits(w, l, r, "early_leave_minutes")
    ensures var whole, left, right := StatsOver(w, user, a, c), StatsOver(l, user, a, m), StatsOver(r, user, next, c);
      && (whole.Returned? <==> left.Returned? && right.Returned?)
      && (whole.Returned? ==>
            && whole.value.totalDays == left.value.totalDays + right.value.totalDays
            && whole.value.totalOnline == left.value.totalOnline + right.value.totalOnline
            && whole.value.totalOffice == left.value.totalOffice + right.value.totalOffice
            && whole.value.totalLate == left.value.totalLate + right.value.totalLate
            && whole.value.totalEarly == left.value.totalEarly + right.value.totalEarly)
  {
  }

  /** Office minutes no greater than online minutes, as `record_location`
      writes them. */
  predicate OfficeWithinOnline(s: Doc) {
    && Number(GetOr(s, "total_online_minutes", Int(0))).Some?
    && Number(GetOr(s, "total_office_minutes", Int(0))).Some?
    && 0.0 <= Number(GetOr(s, "total_office_minutes", Int(0))).value <= Number(GetOr(s, "total_online_minutes", Int(0))).value
  }

  lemma {:induction false} TotalsOrdered(sessions: seq<Doc>)
    requires forall i :: 0 <= i < |sessions| ==> OfficeWithinOnline(sessions[i])
    ensures Total(sessions, "total_online_minutes").Some? && Total(sessions, "total_office_minutes").Some?
    ensures 0.0 <= Total(sessions, "total_office_minutes").value <= Total(sessions, "total_online_minutes").value
  {
    if |sessions| > 0 {
      TotalsOrdered(sessions[1..]);
      assert OfficeWithinOnline(sessions[0]);
    }
  }

  lemma RateBound(office: real, online: real)
    requires 0.0 <= office <= online && online > 0.0
    ensures 0.0 <= office / online * 100.0 <= 100.0
  {
    assert office / online <= 1.0;
  }

  /** The average of a total over n sessions, times n, is the total. */
  lemma AverageTimesCount(total: real, n: nat)
    requires n > 0
    ensures total / (n as real) * (n as real) == total
  {
  }

  lemma RateTimesOnline(office: real, online: real)
    requires online > 0.0
    ensures office / online * 100.0 * online == office * 100.0
  {
    assert office / online * online == office;
  }

  /** When every session of the user has no more office than online minutes,
      the attendance rate is a percentage between 0 and 100. */
  lemma AttendanceRateBounded(sessions: seq<Doc>, user: int, startDate: string, endDate: string)
    requires UserStatistics(sessions, user, startDate, endDate).Returned?
    requires forall s :: s in sessions && Matches(s, UserFilter(user)) ==> OfficeWithinOnline(s)
    ensures 0.0 <= UserStatistics(sessions, user, startDate, endDate).value.attendanceRate <= 100.0
  {
    var inRange := SessionsInRange(sessions, user, startDate, endDate).value;
    SessionsInRangeMembers(sessions, user, startDate, endDate);
    assert forall i :: 0 <= i < |inRange| ==> OfficeWithinOnline(inRange[i]) by {
      forall i | 0 <= i < |inRange| ensures OfficeWithinOnline(inRange[i]) {
        assert inRange[i] in inRange;
      }
    }
    TotalsOrdered(inRange);
    var st := UserStatistics(sessions, user, startDate, endDate).value;
    if st.totalOnline > 0.0 {
      RateBound(st.totalOffice, st.totalOnline);
    }
  }

  // Chart data

  /** `{s["date"]: s for s in sessions}`: a later session replaces an earlier
      one of the same date. */
  function ByDate(sessions: seq<Doc>): (r: map<string, Doc>)
    ensures forall date :: date in r ==> DateOf(r[date]) == date
  {
    if |sessions| == 0 then map[]
    else ByDate(sessions[..|sessions| - 1])[DateOf(sessions[|sessions| - 1]) := sessions[|sessions| - 1]]
  }

  /** Session i is the last one dated `date`. */
  predicate LastDated(sessions: seq<Doc>, i: nat, date: string)
    requires i < |sessions|
  {
    DateOf(sessions[i]) == date && forall j :: i < j < |sessions| ==> DateOf(sessions[j]) != date
  }

  /** The map holds a date exactly when some session has it, and maps it to
      the last session of that date. */
  lemma {:induction false} ByDateLatest(sessions: seq<Doc>, date: string)
    ensures date in ByDate(sessions) <==> exists i :: 0 <= i < |sessions| && DateOf(sessions[i]) == date
    ensures forall i :: 0 <= i < |sessions| && LastDated(sessions, i, date) ==>
      date in ByDate(sessions) && ByDate(sessions)[date] == sessions[i]
  {
    ByDateKeys(sessions, date);
    forall i | 0 <= i < |sessions| && LastDated(sessions, i, date)
      ensures date in ByDate(sessions) && ByDate(sessions)[date] == sessions[i]
    {
      ByDateLast(sessions, i, date);
    }
  }

  /** The dates `session_by_date` holds are the dates of the sessions. */
  lemma {:induction false} ByDateKeys(sessions: seq<Doc>, date: string)
    ensures date in ByDate(sessions) <==> exists i :: 0 <= i < |sessions| && DateOf(sessions[i]) == date
  {
    if |sessions| > 0 {
      var n := |sessions| - 1;
      var init := sessions[..n];
      ByDateKeys(init, date);
      assert forall i :: 0 <= i < n ==> init[i] == sessions[i];
      if DateOf(sessions[n]) != date && exists i :: 0 <= i < |sessions| && DateOf(sessions[i]) == date {
        var i :| 0 <= i < |sessions| && DateOf(sessions[i]) == date;
        assert DateOf(init[i]) == date;
      }
    }
  }

  /** A later session of the same date overwrites an earlier one, so the
      last session of a date is the one kept. */
  lemma {:induction false} ByDateLast(sessions: seq<Doc>, i: nat, date: string)
    requires i < |sessions| && LastDated(sessions, i, date)
    ensures date in ByDate(sessions) && ByDate(sessions)[date] == sessions[i]
  {
    var n := |sessions| - 1;
    var init := sessions[..n];
    assert ByDate(sessions) == ByDate(init)[DateOf(sessions[n]) := sessions[n]];
    if i < n {
      assert DateOf(sessions[n]) != date;
      assert LastDated(init, i, date) by {
        assert init[i] == sessions[i];
        assert forall j :: i < j < n ==> init[j] == sessions[j];
      }
      ByDateLast(init, i, date);
    }
  }

  /** One chart value: the counter of the day's session, 0 when the day has
      no (or an empty) session or the session lacks the counter. */
  function Cell(byDate: map<string, Doc>, day: string, key: string): Value {
    if day in byDate && byDate[day] != map[] then GetOr(byDate[day], key, Int(0)) else Int(0)
  }

  /** The labels and the three data series of `get_chart_data`. */
  datatype Chart = Chart(labels: seq<string>, online: seq<Value>, office: seq<Value>, late: seq<Value>)

  /** `strftime("%Y-%m-%d")` of each day. */
  function Labels(days: seq<Date>): (r: seq<string>)
    requires forall k :: 0 <= k < |days| ==> Valid(days[k])
    ensures |r| == |days|
    ensures forall k :: 0 <= k < |days| ==> r[k] == Format(days[k])
  {
    if |days| == 0 then []
    else
      var init := days[..|days| - 1];
      assert forall k :: 0 <= k < |init| ==> init[k] == days[k];
      Labels(init) + [Format(days[|days| - 1])]
  }

  /** The chart for the given labels: point k carries the cells of day k. */
  function ChartOver(byDate: map<string, Doc>, labels: seq<string>): (c: Chart)
    ensures c.labels == labels
    ensures |c.online| == |c.office| == |c.late| == |labels|
    ensures forall k :: 0 <= k < |labels| ==>
      && c.online[k] == Cell(byDate, labels[k], "total_online_minutes")
      && c.office[k] == Cell(byDate, labels[k], "total_office_minutes")
      && c.late[k] == Cell(byDate, labels[k], "late_arrival_minutes")
  {
    if |labels| == 0 then Chart([], [], [], [])
    else
      var c := ChartOver(byDate, labels[..|labels| - 1]);
      var day := labels[|labels| - 1];
      Chart(c.labels + [day],
            c.online + [Cell(byDate, day, "total_online_minutes")],
            c.office + [Cell(byDate, day, "total_office_minutes")],
            c.late + [Cell(byDate, day, "late_arrival_minutes")])
  }

  /** Adding one day to the walked days adds one point to the chart. */
  lemma ChartStep(byDate: map<string, Doc>, done: seq<Date>, d: Date)
    requires forall k :: 0 <= k < |done| ==> Valid(done[k])
    requires Valid(d)
    ensures forall k :: 0 <= k < |done + [d]| ==> Valid((done + [d])[k])
    ensures var c, day := ChartOver(byDate, Labels(done)), Format(d);
      ChartOver(byDate, Labels(done + [d])) ==
        Chart(c.labels + [day],
              c.online + [Cell(byDate, day, "total_online_minutes")],
              c.office + [Cell(byDate, day, "total_office_minutes")],
              c.late + [Cell(byDate, day, "late_arrival_minutes")])
  {
    assert (done + [d])[..|done|] == done;
    assert Labels(done + [d]) == Labels(done) + [Format(d)];
    assert (Labels(done) + [Format(d)])[..|done|] == Labels(done);
  }

  /** `get_chart_data`: one point per day from `start_date` to `end_date`
      inclusive. It raises where the range query raises, where either date
      does not parse, and when the walk has to step past 9999-12-31. */
  function ChartData(sessions: seq<Doc>, user: int, startDate: string, endDate: string): (r: Outcome<Chart>)
    ensures r.Raised? <==>
      || SessionsInRange(sessions, user, startDate, endDate).Raised?
      || ParseDate(startDate).None? || ParseDate(endDate).None?
      || (DateLe(ParseDate(startDate).value, ParseDate(endDate).value) && ParseDate(endDate).value == LastDate)
    ensures r.Returned? ==>
      && SessionsInRange(sessions, user, startDate, endDate).Returned?
      && ParseDate(startDate).Some? && ParseDate(endDate).Some?
      && (r.value.labels == [] <==> !DateLe(ParseDate(startDate).value, ParseDate(endDate).value))
  {
    match SessionsInRange(sessions, user, startDate, endDate)
    case Raised => Raised
    case Returned(inRange) =>
      match ParseDate(startDate)
      case None => Raised
      case Some(s) =>
        match ParseDate(endDate)
        case None => Raised
        case Some(e) =>
          if DateLe(s, e) && e == LastDate then Raised
          else Returned(ChartOver(ByDate(inRange), Labels(DayRange(s, e))))
  }

  /** Label k of a day range is the canonical date k days after `s`. */
  lemma RangeLabels(s: Date, e: Date)
    requires Valid(s) && Valid(e)
    ensures var labels := Labels(DayRange(s, e));
      forall k :: 0 <= k < |labels| ==>
        && ParseDate(labels[k]).Some?
        && Format(ParseDate(labels[k]).value) == labels[k]
        && Ordinal(ParseDate(labels[k]).value) == Ordinal(s) + k
  {
    var days := DayRange(s, e);
    var labels := Labels(days);
    DayRangeDays(s, e);
    forall k | 0 <= k < |days|
      ensures ParseDate(labels[k]) == Some(days[k])
    {
      DateRoundTrip(days[k]);
    }
  }

  /** A day range has one label per day from `s` to `e`, the last being `e`. */
  lemma RangeLabelsEnds(s: Date, e: Date)
    requires Valid(s) && Valid(e)
    ensures var labels := Labels(DayRange(s, e));
      && |labels| == (if DateLe(s, e) then Ordinal(e) - Ordinal(s) + 1 else 0)
      && (DateLe(s, e) ==> labels[0] == Format(s) && labels[|labels| - 1] == Format(e))
  {
    var days := DayRange(s, e);
    DayRangeDays(s, e);
    if DateLe(s, e) {
      DateLeIsOrdinalOrder(s, e);
      OrdinalInjective(days[|days| - 1], e);
      OrdinalInjective(days[0], s);
    }
  }

  /** The chart has one point per day of the range: label k is the canonical
      date k days after `start_date`, the last label is `end_date`'s day, and
      all series are as long as the labels. */
  lemma ChartLabels(sessions: seq<Doc>, user: int, startDate: string, endDate: string)
    requires ChartData(sessions, user, startDate, endDate).Returned?
    ensures var c := ChartData(sessions, user, startDate, endDate).value;
      var s, e := ParseDate(startDate).value, ParseDate(endDate).value;
      && |c.labels| == |c.online| == |c.office| == |c.late|
      && c.labels == Labels(DayRange(s, e))
  {
  }

  /** Each day's value is the counter of the last in-range session dated that
      day, or 0 when the user has no session that day. */
  lemma ChartCells(sessions: seq<Doc>, user: int, startDate: string, endDate: string, k: nat, key: string)
    requires ChartData(sessions, user, startDate, endDate).Returned?
    requires k < |ChartData(sessions, user, startDate, endDate).value.labels|
    requires key in {"total_online_minutes", "total_office_minutes", "late_arrival_minutes"}
    ensures var c := ChartData(sessions, user, startDate, endDate).value;
      var inRange := SessionsInRange(sessions, user, startDate, endDate).value;
      var v := if key == "total_online_minutes" then c.online[k] else if key == "total_office_minutes" then c.office[k] else c.late[k];
      && ((forall i :: 0 <= i < |inRange| ==> DateOf(inRange[i]) != c.labels[k]) ==> v == Int(0))
      && (forall i :: 0 <= i < |inRange| && LastDated(inRange, i, c.labels[k]) ==> v == GetOr(inRange[i], key, Int(0)))
  {
    var inRange := SessionsInRange(sessions, user, startDate, endDate).value;
    var c := ChartData(sessions, user, startDate, endDate).value;
    var days := ChartDays(sessions, user, startDate, endDate);
    assert c.labels[k] == Format(days[k]);
    CellLatest(inRange, c.labels[k], key);
  }

  /** The days a returned chart covers, with the chart they give. */
  lemma ChartDays(sessions: seq<Doc>, user: int, startDate: string, endDate: string) returns (days: seq<Date>)
    requires ChartData(sessions, user, startDate, endDate).Returned?
    ensures forall k :: 0 <= k < |days| ==> Valid(days[k])
    ensures ChartData(sessions, user, startDate, endDate).value ==
      ChartOver(ByDate(SessionsInRange(sessions, user, startDate, endDate).value), Labels(days))
  {
    days := DayRange(ParseDate(startDate).value, ParseDate(endDate).value);
  }

  /** A day's cell is 0 when no session has that date, and otherwise the
      counter of the last session with that date (0 when it lacks it). */
  lemma CellLatest(inRange: seq<Doc>, day: string, key: string)
    requires day != ""
    ensures (forall i :: 0 <= i < |inRange| ==> DateOf(inRange[i]) != day) ==> Cell(ByDate(inRange), day, key) == Int(0)
    ensures forall i :: 0 <= i < |inRange| && LastDated(inRange, i, day) ==>
      Cell(ByDate(inRange), day, key) == GetOr(inRange[i], key, Int(0))
  {
    ByDateLatest(inRange, day);
    forall i | 0 <= i < |inRange| && DateOf(inRange[i]) == day
      ensures inRange[i] != map[]
    {
      assert Dated(inRange[i]);
    }
  }
}

=== FILE: storage.dfy ===
/** What a store file can hold on disk, and the I/O failures a write can meet.
    Both copies of the record store keep one such file per collection name. */
module Storage {
  import opened Docs

  /** The on-disk state of one file: absent; present but unreadable
      (malformed JSON, or an I/O error on read); present but not UTF-8 text,
      so that decoding it raises UnicodeDecodeError before any JSON is parsed;
      or holding a parsed value. */
  datatype Persisted<+T> = Missing | Corrupt | Undecodable | Present(content: T)

  /** How a write to disk goes: it succeeds, it fails before anything is
      written (the file cannot be opened), or it fails part-way through. */
  datatype IoFault = NoFault | CannotOpen | FailsMidWrite

  /** The state of file `name`; a name never written is a missing file. */
  function StateOf<T>(m: map<string, Persisted<T>>, name: string): Persisted<T> {
    if name in m then m[name] else Missing
  }

  /** The documents a collection file holds: its parsed list, or the empty
      list when there is none to read. */
  function Loaded(p: Persisted<seq<Doc>>): seq<Doc> {
    if p.Present? then p.content else []
  }
}

=== FILE: text.dfy ===
/** Python's ordering on `str` and the decimal digits inside fixed-width
    strings. The key fact: two strings with the same layout of digits and
    separators compare like the numbers their digits spell. */
module Text {

  predicate IsDigit(c: char) {
    '0' <= c <= '9'
  }

  function DigitOf(c: char): nat
    requires IsDigit(c)
  {
    (c as int) - ('0' as int)
  }

  predicate AllDigits(s: string) {
    forall i :: 0 <= i < |s| ==> IsDigit(s[i])
  }

  /** `a <= b` on Python strings: code-point lexicographic order, a proper
      prefix sorting first. */
  predicate LexLe(a: string, b: string)
    decreases |a|
  {
    |a| == 0 || (|b| > 0 && (a[0] < b[0] || (a[0] == b[0] && LexLe(a[1..], b[1..]))))
  }

  /** `a < b` on Python strings. */
  predicate LexLt(a: string, b: string) {
    LexLe(a, b) && a != b
  }

  function Pow10(n: nat): (r: nat)
    ensures r >= 1
  {
    if n == 0 then 1 else 10 * Pow10(n - 1)
  }

  /** How many decimal digits `s` holds. */
  function DigitCount(s: string): nat {
    if |s| == 0 then 0 else (if IsDigit(s[0]) then 1 else 0) + DigitCount(s[1..])
  }

  /** The number spelled by the digits of `s`, read left to right with every
      other character skipped ("09:30" spells 930). */
  function DigitValue(s: string): nat {
    if |s| == 0 then 0
    else if IsDigit(s[0]) then DigitOf(s[0]) * Pow10(DigitCount(s[1..])) + DigitValue(s[1..])
    else DigitValue(s[1..])
  }

  /** Place-value step: a smaller leading digit wins whatever follows it. */
  lemma LeadingDigitDominates(x: nat, y: nat, p: nat, rx: nat, ry: nat)
    requires x < y && rx < p
    ensures x * p + rx < y * p + ry
  {
    var k: nat := y - x - 1;
    assert y * p == x * p + p + k * p by {
      assert y == x + 1 + k;
    }
    assert k * p >= 0;
  }

  /** The digits of a string with k digits spell a number below 10^k. */
  lemma {:induction false} DigitValueBound(s: string)
    ensures DigitValue(s) < Pow10(DigitCount(s))
  {
    if |s| > 0 {
      DigitValueBound(s[1..]);
      if IsDigit(s[0]) {
        var p := Pow10(DigitCount(s[1..]));
        assert DigitCount(s) == DigitCount(s[1..]) + 1;
        assert Pow10(DigitCount(s)) == 10 * p;
        LeadingDigitDominates(DigitOf(s[0]), 10, p, DigitValue(s[1..]), 0);
      }
    }
  }

  /** Two strings with digits in the same places and the same characters
      everywhere else. */
  predicate SameShape(a: string, b: string) {
    && |a| == |b|
    && (forall i :: 0 <= i < |a| ==> (IsDigit(a[i]) <==> IsDigit(b[i])))
    && (forall i :: 0 <= i < |a| && !IsDigit(a[i]) ==> a[i] == b[i])
  }

  lemma {:induction false} SameShapeDigitCount(a: string, b: string)
    requires SameShape(a, b)
    ensures DigitCount(a) == DigitCount(b)
  {
    if |a| > 0 {
      assert IsDigit(a[0]) <==> IsDigit(b[0]);
      SameShapeTail(a, b);
      SameShapeDigitCount(a[1..], b[1..]);
    }
  }

  lemma SameShapeTail(a: string, b: string)
    requires SameShape(a, b) && |a| > 0
    ensures SameShape(a[1..], b[1..])
  {
    forall i | 0 <= i < |a| - 1
      ensures IsDigit(a[1..][i]) <==> IsDigit(b[1..][i])
      ensures !IsDigit(a[1..][i]) ==> a[1..][i] == b[1..][i]
    {
      assert a[1..][i] == a[i + 1] && b[1..][i] == b[i + 1];
    }
  }

  /** For strings of one shape, Python's string order is the numeric order of
      the digits they spell: zero-padded fixed-width fields compare correctly
      as text. */
  lemma {:induction false} LexLeIsNumericOrder(a: string, b: string)
    requires SameShape(a, b)
    ensures LexLe(a, b) <==> DigitValue(a) <= DigitValue(b)
  {
    if |a| > 0 {
      SameShapeTail(a, b);
      LexLeIsNumericOrder(a[1..], b[1..]);
      if IsDigit(a[0]) {
        SameShapeDigitCount(a[1..], b[1..]);
        DigitValueBound(a[1..]);
        DigitValueBound(b[1..]);
        var p := Pow10(DigitCount(a[1..]));
        var da, db := DigitOf(a[0]), DigitOf(b[0]);
        var ra, rb := DigitValue(a[1..]), DigitValue(b[1..]);
        assert DigitValue(a) == da * p + ra;
        assert DigitValue(b) == db * p + rb;
        if da < db {
          assert a[0] < b[0];
          LeadingDigitDominates(da, db, p, ra, rb);
        } else if da > db {
          assert b[0] < a[0];
          LeadingDigitDominates(db, da, p, rb, ra);
        } else {
          assert a[0] == b[0];
        }
      } else {
        assert a[0] == b[0];
      }
    }
  }

  /** Python's string order is total. */
  lemma {:induction false} LexLeTotal(a: string, b: string)
    ensures LexLe(a, b) || LexLe(b, a)
  {
    if |a| > 0 && |b| > 0 && a[0] == b[0] {
      LexLeTotal(a[1..], b[1..]);
    }
  }

  /** Python's string order is antisymmetric. */
  lemma {:induction false} LexLeAntisymmetric(a: string, b: string)
    requires LexLe(a, b) && LexLe(b, a)
    ensures a == b
  {
    if |a| > 0 {
      LexLeAntisymmetric(a[1..], b[1..]);
      assert a == [a[0]] + a[1..];
      assert b == [b[0]] + b[1..];
    }
  }

  /** Python's string order is transitive. */
  lemma {:induction false} LexLeTransitive(a: string, b: string, c: string)
    requires LexLe(a, b) && LexLe(b, c)
    ensures LexLe(a, c)
  {
    if |a| > 0 && a[0] == b[0] && b[0] == c[0] {
      LexLeTransitive(a[1..], b[1..], c[1..]);
    }
  }

  lemma Pow10Add(a: nat, b: nat)
    ensures Pow10(a + b) == Pow10(a) * Pow10(b)
  {
    if a > 0 {
      Pow10Add(a - 1, b);
      assert Pow10(a + b) == 10 * Pow10(a - 1 + b);
    }
  }

  lemma {:induction false} DigitCountConcat(x: string, y: string)
    ensures DigitCount(x + y) == DigitCount(x) + DigitCount(y)
  {
    if |x| > 0 {
      assert (x + y)[0] == x[0];
      assert (x + y)[1..] == x[1..] + y;
      DigitCountConcat(x[1..], y);
    } else {
      assert x + y == y;
    }
  }

  /** The digits of `x + y` spell the number of `x` shifted left past the digits of `y`. */
  lemma {:induction false} DigitValueConcat(x: string, y: string)
    ensures DigitValue(x + y) == DigitValue(x) * Pow10(DigitCount(y)) + DigitValue(y)
  {
    if |x| == 0 {
      assert x + y == y;
    } else {
      assert (x + y)[0] == x[0];
      assert (x + y)[1..] == x[1..] + y;
      DigitValueConcat(x[1..], y);
      if IsDigit(x[0]) {
        var py := Pow10(DigitCount(y));
        var px := Pow10(DigitCount(x[1..]));
        DigitCountConcat(x[1..], y);
        Pow10Add(DigitCount(x[1..]), DigitCount(y));
        var c := DigitOf(x[0]);
        assert DigitValue(x + y) == c * Pow10(DigitCount(x[1..] + y)) + DigitValue(x[1..] + y);
        assert DigitValue(x) == c * px + DigitValue(x[1..]);
        Regroup(c, px, py, DigitValue(x[1..]), DigitValue(y));
      }
    }
  }

  lemma Regroup(c: nat, px: nat, py: nat, v: nat, w: nat)
    ensures c * (px * py) + (v * py + w) == (c * px + v) * py + w
  {
    assert c * (px * py) == (c * px) * py;
    assert (c * px + v) * py == (c * px) * py + v * py;
  }

  /** A string of digits has as many digits as characters. */
  lemma {:induction false} DigitCountAllDigits(s: string)
    requires AllDigits(s)
    ensures DigitCount(s) == |s|
  {
    if |s| > 0 {
      DigitCountAllDigits(s[1..]);
    }
  }

  function DigitChar(n: nat): (c: char)
    requires n < 10
    ensures IsDigit(c) && DigitOf(c) == n
  {
    ('0' as int + n) as char
  }

  /** Two zero-padded decimal digits, as `%H`, `%M`, `%m` and `%d` print them. */
  function Pad2(n: nat): (s: string)
    requires n < 100
    ensures |s| == 2 && AllDigits(s) && DigitValue(s) == n
  {
    var s := [DigitChar(n / 10), DigitChar(n % 10)];
    assert s[1..] == [s[1]];
    assert DigitCount(s[1..][1..]) == 0 && DigitValue(s[1..][1..]) == 0;
    s
  }
}
